=== FILE: README.md ===
# Shared whiteboard: camera, gestures and board synchronization

This Dafny project models the core of a small collaborative whiteboard. It has two parts:

- **The browser client** (`static/app.js`). Each client has its own camera: a scale clamped to [0.2, 5] and a translation in screen pixels. The client turns touch, mouse and wheel input into one of these actions:
  - drawing;
  - pinch zoom;
  - mouse pan with inertia;
  - wheel zoom around the mouse;
  - dragging a text label;
  - creating a text on long press.
- **The relay** (`server.py`). It keeps the authoritative board: a list of line segments and a list of texts. It forwards every edit to the other sockets. A `clear` request only takes effect with the password `hasker`.

What is modelled, by module:

- `Camera`: the screen/world transforms, the scale clamp, wheel zoom around the mouse, and the mouse pan.
- `Pinch`: pinch sessions. The two-finger zoom keeps the world point under the starting midpoint pinned under the fingers and adds the frame's pan.
- `Inertia`: the decaying inertial pan (velocity × 0.92 per frame until both axes are at most 0.1). It runs to completion as one recursive function.
- `Scene`: the board and its merge rules, each defined once. Both the relay and every client apply them:
  - `draw` appends a segment;
  - `text_add` appends a text;
  - `text_move` replaces the first text with the same id.
- `Protocol` and `Relay`: the relay's handlers. Each is modelled by its effect on the board and the set of sockets its event is addressed to.
- `Client`: the client's socket handlers, freehand stroke segments, the text hit test, the drag step and long-press text creation.
- `Gesture`: all of the client's input handlers as one state machine, with an invariant that every event preserves.
- `Net`: the relay together with every connected client, with immediate delivery.

Modelling choices:

- Real numbers stand in for JavaScript doubles.
- `Math.hypot` is a distance `d` passed in with `d ≥ 0` and `d² = dx² + dy²`.
- `performance.now()`, `Date.now()`, `prompt()` and `ctx.measureText` are parameters.

Three behaviours of the code are worth stating outright, because a reader might expect otherwise:

- `text_add` is a plain append, not an upsert by id (`Scene.TextAddIsNotUpsert`).
- Any `touchmove` cancels the long press; there is no movement tolerance.
- The board holds only line segments and texts; there are no image or video objects.

## Model

| member | source | states |
|---|---|---|
| Camera.WorldToScreen | static/app.js:51-53 | for a positive scale, subtracting the translation from the screen point and dividing by the scale gives back the world point |
| Camera.ScreenToWorld | static/app.js:47-53 | for any positive scale, the world point returned is drawn back exactly at the screen point it came from |
| Camera.WorldRoundTrip | static/app.js:47-53 | converting a world point to the screen and back gives the same world point |
| Camera.ScreenToWorldInjective | static/app.js:47-50 | two screen points have the same world point if and only if they are the same point |
| Camera.Clamp | static/app.js:20-21 | the clamped scale lies in [0.2, 5]; a scale already in range is kept; one below or above becomes the nearer bound |
| Camera.ClampMonotone | static/app.js:329 | clamping preserves order |
| Camera.Anchored | static/app.js:326-332 | the translation it computes shows the given world point at the anchor screen point, at the new scale |
| Camera.WheelZoom | static/app.js:321-335 | the scale stays in bounds; it grows by 1.12 when scrolling up and shrinks by 0.9 otherwise, then is clamped; the world point under the mouse stays under the mouse |
| Camera.WheelZoomScenario | static/app.js:323-333 | one wheel notch up at (400, 300) from the home camera gives scale 1.12 and translation (-48, -36) |
| Camera.MousePan | static/app.js:288-295 | the scale does not change; the world point that was under the previous mouse position is now under the current one; the velocity is the mouse delta |
| Pinch.Mid | static/app.js:115-117 | the midpoint is equally far from both touches on each axis |
| Pinch.Start | static/app.js:145-159 | a new session stores the camera, the start distance and the clock reading, with a usable start scale; its anchor is the world point under the touches' midpoint; start and last centers coincide at that midpoint |
| Pinch.ScaleAsWritten | static/app.js:195-196 | the unguarded ratio: undefined (NaN) exactly when the start and current distances are both zero; every defined value lies in [0.2, 5]; a zero start distance with a positive current distance (an infinite ratio) gives exactly 5 |
| Pinch.NaNScaleWitness | static/app.js:195-196 | two touches at one point, both at touchstart and at touchmove, give an undefined scale |
| Pinch.NewScale | static/app.js:195-196 | the corrected scale is always in [0.2, 5]; a zero start distance gives 5 when the fingers have parted, as the infinite ratio does, and keeps the start scale only when they are still together |
| Pinch.ScaleFollowsFingers | static/app.js:195-196 | spreading the fingers never zooms out and pinching never zooms in; when the ratio is within bounds the scale equals the start scale times d / startDist; when start scale × d reaches 5 × startDist the scale is 5, and when it falls to 0.2 × startDist the scale is 0.2 |
| Pinch.NewScaleAgreesWhenDefined | static/app.js:195-196 | for every distance, whenever the unguarded ratio is defined (infinite ratios included) the corrected scale equals it; where it is NaN the corrected scale is the start scale |
| Pinch.PinchScaleScenario | static/app.js:195-196 | spreading the fingers from 100 to 200 pixels at scale 1 gives scale 2 |
| Pinch.Move | static/app.js:190-224 | with the corrected pinch scale, the new camera is in bounds at the new scale; the anchor is drawn at the midpoint plus the midpoint's movement since the last frame; only the last center and time change; velocity × max(1, dt) = movement × 16.67 |
| Pinch.PinchKeepsAnchor | static/app.js:198-213 | when the midpoint has not moved since the last frame, the anchor world point is exactly under it |
| Inertia.Moving | static/app.js:130 | the animation continues exactly when some axis's speed exceeds 0.1 |
| Inertia.Coast | static/app.js:121-138 | the coast keeps the scale and lasts at least one frame and at most 125·(\|vx\| + \|vy\|) + 1 frames |
| Inertia.DecayLowersMeasure | static/app.js:127-130 | while some axis is above 0.1, one decay strictly lowers the termination measure |
| Inertia.CoastStopsAtFirstSlowFrame | static/app.js:127-135 | the coast stops after the first frame at which both decayed speeds are at most 0.1, and at no earlier frame |
| Inertia.CoastTravel | static/app.js:125-128 | the translation moves by the geometric sum v·(1 − 0.92ⁿ)/(1 − 0.92) on each axis |
| Inertia.HundredFramesDecay | static/app.js:127-128 | after 100 frames the speed factor 0.92¹⁰⁰ is below 0.001 |
| Inertia.CoastWithin100Frames | static/app.js:127-135 | a pan released at most 100 pixels per frame on each axis coasts for at most 100 frames |
| Inertia.SlowAfter100Frames | static/app.js:127-130 | such a velocity has decayed to at most 0.1 on both axes by frame 100 |
| Scene.FindFirst | static/app.js:345 | it returns the index of a text with the id and no earlier text has that id; none means no text has it |
| Scene.ReplaceFirst | server.py:41-45 | the length is kept; it replaces exactly the first match, and changes nothing when there is none |
| Scene.AddLine | server.py:32 | the texts are kept; the old segments are an unchanged prefix and the new one is last; its count goes up by one |
| Scene.AddText | server.py:37 | the segments are kept; the old texts are an unchanged prefix and the new one is last; its count goes up by one |
| Scene.MoveText | static/app.js:345 | the segments and the number of texts are kept; the first text with the id becomes the moved text; texts with other ids are unchanged; an unknown id changes nothing |
| Scene.MoveTextUnique | server.py:41-45 | with unique ids, a move replaces exactly the text with that id and keeps the ids unique |
| Scene.MoveLastWriteWins | server.py:41-45 | two moves of one text leave the later one in the first match's place |
| Scene.DrawTwiceKeepsBoth | static/app.js:343 | a segment received twice is stored twice |
| Scene.TextAddIsNotUpsert | server.py:35-38 | adding a text whose id exists keeps the old text and makes the ids non-unique |
| Relay.Others | server.py:33 | the `include_self=False` recipients are exactly the connected sockets other than the sender |
| Relay.OnConnect | server.py:25-27 | only the new socket receives `init`, carrying the whole board; the board is unchanged |
| Relay.OnDraw | server.py:29-33 | the segment is appended and forwarded to everyone but the sender |
| Relay.OnTextAdd | server.py:35-38 | the text is appended and forwarded to everyone but the sender |
| Relay.OnTextMove | server.py:40-46 | the first text with the id is replaced, or nothing changes; the event is forwarded to everyone but the sender either way |
| Relay.Authorized | server.py:51-52 | a clear is authorized exactly when its payload is an object whose `password` is `hasker` |
| Relay.OnClear | server.py:48-58 | with the password the board is emptied and everyone, the sender included, gets `clear`; otherwise nothing changes and only the sender gets `clear_denied`; the board changes only for the exact password object |
| Relay.Handle | server.py:29-58 | requests other than `clear` are never echoed to the sender; `draw` and `text_add` add one element; `text_move` keeps the sizes |
| Client.Receive | static/app.js:338-347 | `init` replaces the board and treats a missing list as empty; `draw` and `text_add` append; `text_move` replaces the first match; `clear` empties; `clear_denied` changes nothing |
| Client.InitForgetsPast | static/app.js:338-341 | two clients that receive the same `init` hold the same board afterwards |
| Client.DrawSegment | static/app.js:238-247 | the segment appended and emitted starts at the last world point and ends at the world point under the pointer, with the brush's width and color |
| Client.SegmentsClosedForm | static/app.js:238-246 | segment k of a stroke runs from the world point of sample k − 1 (the stroke's starting point for k = 0) to the world point of sample k, with the brush's width and color |
| Client.SegmentsChain | static/app.js:238-246 | a stroke's segments start at the stroke's first point; each ends where the next begins and under its own pointer sample |
| Client.StrokeAppendsSegments | static/app.js:302-311 | drawing a stroke sample by sample appends exactly its chain of segments and ends at the last sample's world point |
| Client.Stroke | static/app.js:302-311 | a stroke of pointer samples keeps every text and every existing line in place, appends one segment per sample, and ends under the last sample (an empty stroke changes nothing) |
| Client.FontSize | static/app.js:95 | the font size is at least 6 and at least the text's size times the scale, and equals one of the two |
| Client.Hits | static/app.js:98-104 | a screen point hits a text exactly when it is at most 0.6 font sizes above or below the text's anchor and between 12 pixels left of it and 12 pixels past its rendered width |
| Client.AnchorHits | static/app.js:98-104 | a text's own anchor point always lies in its hit box |
| Client.HitTest | static/app.js:90-107 | the text it returns is hit and no later text is hit; none means no text is hit |
| Client.HitTestPrefersNewest | static/app.js:92-105 | of two overlapping texts under the pointer, one at least as new as the later is picked |
| Client.DragTo | static/app.js:229-236 | the dragged text keeps its id, content, size and color, and its position is drawn under the pointer |
| Client.LongPress | static/app.js:176-183 | a cancelled or empty prompt changes nothing; otherwise a text with the brush's size and color is appended at the press point and emitted |
| Gesture.InitialInv | static/app.js:18-33 | the page-load state `Gesture.Initial` satisfies the invariant: scale 1 at the origin, empty board, brush of size 3, text size 24 and color #000000, and no gesture in progress |
| Gesture.CoastOut | static/app.js:121-138 | running the inertia keeps the scale, moves the translation on each axis by the geometric sum of the decaying velocity over the frames the animation ran, leaves the velocity at zero and changes nothing else |
| Gesture.DragStep | static/app.js:296-301 | the emitted `text_move` is the dragged object with only its position changed, drawn under the pointer; it replaces the stored text while still attached, and otherwise the board is unchanged |
| Gesture.DrawStep | static/app.js:302-311 | the emitted segment is the one appended locally, runs from the old last point to the world point under the pointer with the brush's width and color; its end becomes the new last point |
| Gesture.OnTouchStart | static/app.js:141-184 | two touches start a pinch anchored at the world point under their midpoint; otherwise a touch over a text drags the topmost text under it; otherwise drawing starts and the long press is armed at the world point under the touch; only the fields of the chosen branch change |
| Gesture.OnTouchMove | static/app.js:186-248 | the long press is cancelled; with two touches and a pinch the scale follows the corrected pinch ratio, the anchor moves with the midpoint, the pinch record takes the new center and time, the pan velocity × max(1, dt) is the center's movement × 16.67, nothing is sent and no other field changes; otherwise a drag moves the dragged text under the finger and emits it; otherwise an active stroke appends and emits one segment to the finger's world point; in those two branches the camera, velocity and every other field are kept; otherwise nothing else changes |
| Gesture.OnTouchEnd | static/app.js:250-260 | the long press is cancelled and every touch gesture ends; a pinch released faster than 0.2 pixels per frame on some axis coasts; otherwise the camera and velocity are unchanged; apart from the camera and velocity, only the cleared gesture fields change |
| Gesture.OnLongPress | static/app.js:176-183 | a cancelled timer does nothing; a non-empty prompt answer sends `text_add` of a text with the given id at the press point with the brush's text size and color, appended locally; a cancelled or empty prompt sends nothing and keeps the board; apart from the board, only the pending press is cleared |
| Gesture.OnMouseDown | static/app.js:265-285 | the middle and right buttons, and only they, start a pan from the pointer; the left button over a text drags the topmost text under it; otherwise it starts a stroke at the world point under the pointer; each branch changes only the button state, the mode and that gesture's own field |
| Gesture.OnMouseMove | static/app.js:286-312 | with no button down nothing happens; a pan keeps the world point under the pointer that was under the previous one, keeps the scale, sets the velocity to the mouse delta and changes nothing else; a drag moves the dragged text under the pointer and emits it; a stroke appends and emits one segment; neither changes the camera or velocity; a mode with nothing to act on changes nothing |
| Gesture.OnMouseUp | static/app.js:313-320 | the mouse gesture ends; a last velocity above 1 pixel per event on some axis coasts; otherwise the camera and velocity are unchanged; apart from the camera and velocity, only the cleared gesture fields change |
| Gesture.Detach | static/app.js:338-346 | `init` and `clear` detach a drag; a `text_move` detaches it exactly when the first stored text with the moved id is the dragged slot, and leaves it attached when an earlier text has that id, the slot holds another id or the slot is gone; `draw`, `text_add` and `clear_denied` leave it as it was |
| Gesture.OnInbound | static/app.js:338-347 | an inbound event merges into the board by the client's rules; a drag in progress is re-pointed as `Gesture.Detach` says and no drag starts; only the board and the drag change, so the camera never moves |
| Gesture.Step | static/app.js:141-335 | with the corrected pinch scale, every handler keeps the invariant; only moves and a fired long press emit; only moves, releases and the wheel move the camera |
| Gesture.Run | static/app.js:141-347 | with the corrected pinch scale, after any sequence of events the scale is still in [0.2, 5] |
| Gesture.DragStepIsMove | static/app.js:229-236 | a drag step on an attached text that is the first with its id changes the board exactly as the relay's `text_move` will |
| Gesture.SentIsAppliedLocally | static/app.js:238-241 | whatever a client emits, it has already applied to its own board by the rule the relay applies |
| Net.Step | server.py:25-58 | joins add a client, leaves remove one, and other actions keep the set of clients |
| Net.StepKeepsSynced | server.py:29-58 | with immediate delivery, a system where every client shows the relay's board stays so after any action, as long as a drag is attached and its text is the first with its id |
| Net.JoinAdoptsRelayBoard | server.py:25-27 | a joining client receives the relay's board and no other board changes |
| Net.DeniedClearChangesNothing | server.py:56-58 | a clear without the password changes nothing anywhere |
| Net.AuthorizedClearEmptiesAll | server.py:52-55 | a clear with the password empties the relay and every client |
| Net.DuplicateIdDragDiverges | server.py:41-45 | with two texts T, T sharing an id, dragging the later one to x = 50 leaves the relay and the other client at [T moved, T] while the dragging client holds [T, T moved] |
| Net.DetachedDragDiverges | static/app.js:338-346 | a drag that outlived an inbound `text_move` keeps moving a copy the client no longer stores: the relay and the other client move the stored text, the dragging client's board stays as it was, and the system is out of sync |
| Net.DragAfterClearIsHarmless | server.py:41-46 | after an authorized clear every board equals the relay's, and a drag detached by that clear matches nothing anywhere and changes nothing |

## Left out

- Rendering: `redraw`, `drawLineOnScreen`, `drawTextOnScreen`, canvas sizing and the resize handler. They draw pixels and hold no board state.
- The settings panel, the overlay, the clear button and the context-menu handler. They are user-interface chrome. The brush is a plain `Client.Brush` value, and the clear password arrives as a request payload.
- `requestAnimationFrame` and `cancelAnimationFrame`: `Inertia.Coast` runs the whole animation at once. So a touchstart or mousedown that stops a running inertia partway (static/app.js:143, 270) is not modelled.
- `setTimeout` for the long press is the `LongPressFires` input acting on the single armed timer. A second timer armed before the first fires, which leaks the first, is not modelled.
- `prompt()` and `alert()`: the typed text is an input, and the `clear_denied` alert changes no state.
- IEEE double rounding and overflow. Of the non-finite values only the pinch ratio's are kept, in `Pinch.ScaleAsWritten`: the undefined 0 / 0 and the infinite d / 0, which the clamp turns into 5.
- The Socket.IO transport and the Flask routes that serve static files (server.py:16-22, 60-61).
- Payloads that are not objects: `draw`, `text_add` and `text_move` are given typed values. Only `clear` models a missing or malformed payload.
- Network delay and reordering: `Net` delivers each event immediately, so it says nothing about concurrent edits in flight. Even with immediate delivery the boards can diverge, for two reasons that have nothing to do with delay: a drag of a text whose id an earlier text shares (`Net.DuplicateIdDragDiverges`), and a drag that outlived an inbound `init` or `text_move` (`Net.DetachedDragDiverges`). A drag detached by a `clear` does no harm, because the board it would move is gone everywhere (`Net.DragAfterClearIsHarmless`).
- Disconnects: the relay has no handler for them, and `Net`'s `Leaves` only drops the client.
- `Pinch.Move`: the inertia velocity is stated as `velocity × max(1, now − lastTime) = movement × 16.67` rather than as the division the code performs. The two are equal because the divisor is at least 1.
- Inertia.CoastWithin100Frames: the 100-frame bound is proved only for release speeds up to 100 pixels per frame on each axis. For any speed, `Inertia.Coast` bounds the frame count by 125·(|vx| + |vy|) + 1.
- Mouse drawing with no last point fails on `null` in the code before it changes anything. The model treats it as a no-op.

## Findings

| source | as written | input that shows it | evidently intended | confidence | as-written member | corrected member |
|---|---|---|---|---|---|---|
| static/app.js:195-196 | `pinch.startScale * (d / pinch.startDist)` has no guard for a zero start distance; 0 / 0 is NaN, `Math.max`/`Math.min` keep NaN, and the camera's scale becomes NaN | two touches reported at the same point at touchstart and again at the next touchmove (startDist = 0, d = 0) | the scale stays within [0.2, 5] | low, not executed | Pinch.ScaleAsWritten, Pinch.NaNScaleWitness | Pinch.NewScale, Pinch.ScaleFollowsFingers, Pinch.NewScaleAgreesWhenDefined, Pinch.Move, Gesture.OnTouchMove, Gesture.Step, Gesture.Run |

=== FILE: camera.dfy ===
/** The client's camera: the affine map between world coordinates of the
    shared board and screen pixels, and the ways a client changes it —
    wheel zoom, two-finger pinch, mouse pan and inertial coasting.
    All arithmetic is exact over `real`; the client computes in JavaScript's IEEE doubles. */
module Camera {

  import opened Wrappers

  datatype Point = Point(x: real, y: real)

  const MinScale: real := 0.2
  const MaxScale: real := 5.0

  /** `scale` is screen pixels per world unit; `(tx, ty)` is where the world
      origin lands on screen. */
  datatype View = View(scale: real, tx: real, ty: real)

  /** The invariant every mutation site keeps: the scale stays in bounds,
      which in particular makes dividing by it safe. */
  predicate Valid(v: View) {
    MinScale <= v.scale <= MaxScale
  }

  const Home: View := View(1.0, 0.0, 0.0)

  function Abs(x: real): (r: real) {
    if x < 0.0 then -x else x
  }

  function Min(a: real, b: real): (r: real) {
    if a <= b then a else b
  }

  function Max(a: real, b: real): (r: real) {
    if a >= b then a else b
  }

  // ---------------------------------------------------------------------
  // Coordinate transforms

  /** The screen point at which world point `w` is drawn. For a positive
      scale, subtracting the translation and dividing by the scale (what
      `screenToWorld` does) recovers `w`. */
  function WorldToScreen(v: View, w: Point): (s: Point)
    ensures v.scale > 0.0 ==> (s.x - v.tx) / v.scale == w.x && (s.y - v.ty) / v.scale == w.y
  {
    ScaleThenDiv(w.x, v.scale);
    ScaleThenDiv(w.y, v.scale);
    Point(w.x * v.scale + v.tx, w.y * v.scale + v.ty)
  }

  /** Scaling by a positive factor and dividing by it again is the identity. */
  lemma ScaleThenDiv(a: real, k: real)
    ensures k > 0.0 ==> (a * k) / k == a
  {
  }

  /** The world point drawn at screen point `s`. */
  function ScreenToWorld(v: View, s: Point): (w: Point)
    requires v.scale > 0.0
    ensures WorldToScreen(v, w) == s
  {
    DivThenScale(s.x - v.tx, v.scale);
    DivThenScale(s.y - v.ty, v.scale);
    Point((s.x - v.tx) / v.scale, (s.y - v.ty) / v.scale)
  }

  lemma DivThenScale(a: real, k: real)
    requires k > 0.0
    ensures (a / k) * k == a
  {
  }

  /** Going to the screen and back returns the same world point. */
  lemma WorldRoundTrip(v: View, w: Point)
    requires v.scale > 0.0
    ensures ScreenToWorld(v, WorldToScreen(v, w)) == w
  {
    var s := WorldToScreen(v, w);
    assert (s.x - v.tx) / v.scale == w.x;
    assert (s.y - v.ty) / v.scale == w.y;
  }

  /** Distinct screen points show distinct world points, and the other way round. */
  lemma ScreenToWorldInjective(v: View, s1: Point, s2: Point)
    requires v.scale > 0.0
    ensures ScreenToWorld(v, s1) == ScreenToWorld(v, s2) <==> s1 == s2
  {
    if ScreenToWorld(v, s1) == ScreenToWorld(v, s2) {
      assert WorldToScreen(v, ScreenToWorld(v, s1)) == s1;
      assert WorldToScreen(v, ScreenToWorld(v, s2)) == s2;
    }
  }

  // ---------------------------------------------------------------------
  // Zoom

  /** The scale bounded below by the minimum and above by the maximum. */
  function Clamp(s: real): (r: real)
    ensures MinScale <= r <= MaxScale
    ensures MinScale <= s <= MaxScale ==> r == s
    ensures s < MinScale ==> r == MinScale
    ensures s > MaxScale ==> r == MaxScale
  {
    Max(MinScale, Min(MaxScale, s))
  }

  /** Clamping never reverses the direction of a change of scale. */
  lemma ClampMonotone(a: real, b: real)
    ensures a <= b ==> Clamp(a) <= Clamp(b)
  {
  }

  /** The camera with scale `s` that shows world point `w` at screen point `anchor`. */
  function Anchored(s: real, w: Point, anchor: Point): (v: View)
    ensures v.scale == s
    ensures WorldToScreen(v, w) == anchor
  {
    View(s, anchor.x - w.x * s, anchor.y - w.y * s)
  }

  function WheelFactor(deltaY: real): (f: real) {
    if deltaY < 0.0 then 1.12 else 0.9
  }

  /** The wheel handler: zoom in by 12% when scrolling up and out by 10%
      otherwise, clamp, and keep the world point under the mouse in place. */
  function WheelZoom(v: View, deltaY: real, mouse: Point): (r: View)
    requires Valid(v)
    ensures Valid(r)
    ensures deltaY < 0.0 ==> r.scale == Clamp(v.scale * 1.12) && r.scale >= v.scale
    ensures deltaY >= 0.0 ==> r.scale == Clamp(v.scale * 0.9) && r.scale <= v.scale
    ensures ScreenToWorld(r, mouse) == ScreenToWorld(v, mouse)
  {
    var w := ScreenToWorld(v, mouse);
    var r := Anchored(Clamp(v.scale * WheelFactor(deltaY)), w, mouse);
    WorldRoundTrip(r, w);
    r
  }

  /** Zooming in at (400, 300) from the home camera gives scale 1.12 and keeps
      that screen point fixed. */
  lemma WheelZoomScenario()
    ensures WheelZoom(Home, -1.0, Point(400.0, 300.0)) == View(1.12, -48.0, -36.0)
  {
    var m := Point(400.0, 300.0);
    assert ScreenToWorld(Home, m) == m;
    assert Clamp(1.0 * WheelFactor(-1.0)) == 1.12;
  }

  // ---------------------------------------------------------------------
  // Mouse pan

  /** The pan branch of mousemove: translate by the mouse delta and record it
      as the pan velocity. Returns the new camera and velocity. */
  function MousePan(v: View, last: Point, cur: Point): (r: (View, Point))
    requires Valid(v)
    ensures Valid(r.0) && r.0.scale == v.scale
    ensures ScreenToWorld(r.0, cur) == ScreenToWorld(v, last)
    ensures r.1 == Point(cur.x - last.x, cur.y - last.y)
  {
    var dx := cur.x - last.x;
    var dy := cur.y - last.y;
    var r := View(v.scale, v.tx + dx, v.ty + dy);
    assert WorldToScreen(r, ScreenToWorld(v, last)) == cur;
    WorldRoundTrip(r, ScreenToWorld(v, last));
    (r, Point(dx, dy))
  }
}

=== FILE: client.dfy ===
/** A client's local copy of the board: how inbound events are merged into
    it, and the local edits a pointer makes before telling the relay. */
module Client {

  import opened Wrappers
  import opened Camera
  import opened Scene
  import opened Protocol

  /** The board effect of the client's socket handlers. The client applies
      exactly the merge rules the relay applies; `clear_denied` only shows an
      alert. */
  function Receive(b: Board, e: Event): (r: Board)
    ensures e.InitEvent? ==> r.lines == OrEmpty(e.lines) && r.texts == OrEmpty(e.texts)
    ensures e.ClearEvent? ==> r.lines == [] && r.texts == []
    ensures e.ClearDeniedEvent? ==> r == b
    ensures e.DrawEvent? ==> r.texts == b.texts && r.lines == b.lines + [e.line]
    ensures e.TextAddEvent? ==> r.lines == b.lines && r.texts == b.texts + [e.text]
    ensures e.TextMoveEvent? ==> r.lines == b.lines && r.texts == ReplaceFirst(b.texts, e.text)
  {
    match e
    case InitEvent(lines, texts) => Board(OrEmpty(lines), OrEmpty(texts))
    case DrawEvent(l) => AddLine(b, l)
    case TextAddEvent(t) => AddText(b, t)
    case TextMoveEvent(t) => MoveText(b, t)
    case ClearEvent => Empty
    case ClearDeniedEvent(_) => b
  }

  /** An `init` replaces whatever the client had: two boards that receive
      the same `init` agree afterwards. */
  lemma InitForgetsPast(b1: Board, b2: Board, lines: Option<seq<Line>>, texts: Option<seq<Text>>)
    ensures Receive(b1, InitEvent(lines, texts)) == Receive(b2, InitEvent(lines, texts))
    ensures Receive(b1, InitEvent(None, None)) == Empty
  {
  }

  // ---------------------------------------------------------------------
  // Freehand drawing

  /** The settings panel: brush width, text size and color. */
  datatype Brush = Brush(size: real, textSize: real, color: string)

  datatype Drawn = Drawn(board: Board, last: Point, sent: Line)

  /** The draw branch of touchmove and mousemove: a segment from the last
      world point to the world point under the pointer is appended locally,
      emitted, and the pointer's world point becomes the new last point. */
  function DrawSegment(b: Board, v: View, last: Point, s: Point, brush: Brush): (r: Drawn)
    requires v.scale > 0.0
    ensures r.board == AddLine(b, r.sent)
    ensures r.sent.from == last && r.sent.to == r.last
    ensures WorldToScreen(v, r.last) == s
    ensures r.sent.size == brush.size && r.sent.color == brush.color
  {
    var w := ScreenToWorld(v, s);
    var l := Line(last, w, brush.size, brush.color);
    Drawn(AddLine(b, l), w, l)
  }

  /** A whole stroke: one segment per pointer sample, starting from `last`. */
  function Stroke(b: Board, v: View, last: Point, samples: seq<Point>, brush: Brush): (r: (Board, Point))
    requires v.scale > 0.0
    ensures r.0.texts == b.texts
    ensures |r.0.lines| == |b.lines| + |samples|
    ensures r.0.lines[..|b.lines|] == b.lines
    ensures |samples| == 0 ==> r == (b, last)
    ensures |samples| > 0 ==> WorldToScreen(v, r.1) == samples[|samples| - 1]
    decreases |samples|
  {
    if |samples| == 0 then (b, last)
    else
      var d := DrawSegment(b, v, last, samples[0], brush);
      Stroke(d.board, v, d.last, samples[1..], brush)
  }

  /** The segments a stroke should add: a chain that starts at `last` and
      visits the world point under each pointer sample in turn. */
  function Segments(v: View, last: Point, samples: seq<Point>, brush: Brush): (segs: seq<Line>)
    requires v.scale > 0.0
    decreases |samples|
  {
    if |samples| == 0 then []
    else
      var w := ScreenToWorld(v, samples[0]);
      [Line(last, w, brush.size, brush.color)] + Segments(v, w, samples[1..], brush)
  }

  /** Segment `k` of a stroke runs from the world point of sample `k - 1`
      (the starting point for the first) to the world point of sample `k`,
      and every segment carries the brush. */
  lemma {:induction false} SegmentsClosedForm(v: View, last: Point, samples: seq<Point>, brush: Brush)
    requires v.scale > 0.0
    ensures var segs := Segments(v, last, samples, brush);
            && |segs| == |samples|
            && (|segs| > 0 ==> segs[0].from == last)
            && (forall k :: 0 < k < |segs| ==> segs[k].from == ScreenToWorld(v, samples[k - 1]))
            && (forall k :: 0 <= k < |segs| ==> segs[k].to == ScreenToWorld(v, samples[k]))
            && (forall k :: 0 <= k < |segs| ==> segs[k].size == brush.size && segs[k].color == brush.color)
    decreases |samples|
  {
    if |samples| > 0 {
      var w := ScreenToWorld(v, samples[0]);
      var rest := samples[1..];
      var segs := Segments(v, last, samples, brush);
      var tail := Segments(v, w, rest, brush);
      assert segs == [Line(last, w, brush.size, brush.color)] + tail;
      SegmentsClosedForm(v, w, rest, brush);
      forall k | 1 <= k < |segs|
        ensures segs[k] == tail[k - 1] && samples[k] == rest[k - 1]
      {
        if k > 1 {
          assert samples[k - 1] == rest[k - 2];
        }
      }
    }
  }

  /** A stroke's segments form a chain: the first starts at the point where
      the stroke began, each ends where the next begins, each ends at the
      world point under its sample, and all carry the brush. */
  lemma SegmentsChain(v: View, last: Point, samples: seq<Point>, brush: Brush)
    requires v.scale > 0.0
    ensures var segs := Segments(v, last, samples, brush);
            && |segs| == |samples|
            && (|segs| > 0 ==> segs[0].from == last)
            && (forall k :: 0 <= k < |segs| ==> WorldToScreen(v, segs[k].to) == samples[k])
            && (forall i, j :: 0 <= i < j < |segs| && j == i + 1 ==> segs[i].to == segs[j].from)
            && (forall k :: 0 <= k < |segs| ==> segs[k].size == brush.size && segs[k].color == brush.color)
  {
    SegmentsClosedForm(v, last, samples, brush);
    var segs := Segments(v, last, samples, brush);
    forall k | 0 <= k < |segs|
      ensures WorldToScreen(v, segs[k].to) == samples[k]
    {
      assert segs[k].to == ScreenToWorld(v, samples[k]);
    }
    forall i, j | 0 <= i < j < |segs| && j == i + 1
      ensures segs[i].to == segs[j].from
    {
      assert segs[j].from == ScreenToWorld(v, samples[j - 1]);
    }
  }

  /** Drawing sample by sample appends exactly the stroke's segments after
      the existing lines, leaves the texts alone, and ends with the last
      point at the final sample's world point. */
  lemma {:induction false} StrokeAppendsSegments(b: Board, v: View, last: Point, samples: seq<Point>, brush: Brush)
    requires v.scale > 0.0
    ensures Stroke(b, v, last, samples, brush).0 == Board(b.lines + Segments(v, last, samples, brush), b.texts)
    ensures Stroke(b, v, last, samples, brush).1
            == if |samples| == 0 then last else ScreenToWorld(v, samples[|samples| - 1])
    decreases |samples|
  {
    if |samples| == 0 {
      assert b.lines + [] == b.lines;
    } else {
      var w := ScreenToWorld(v, samples[0]);
      var l := Line(last, w, brush.size, brush.color);
      var rest := samples[1..];
      var tail := Segments(v, w, rest, brush);
      assert Stroke(b, v, last, samples, brush) == Stroke(Board(b.lines + [l], b.texts), v, w, rest, brush);
      StrokeAppendsSegments(Board(b.lines + [l], b.texts), v, w, rest, brush);
      assert Segments(v, last, samples, brush) == [l] + tail;
      AppendAssoc(b.lines, [l], tail);
      if |rest| > 0 {
        assert samples[|samples| - 1] == rest[|rest| - 1];
      }
    }
  }

  lemma AppendAssoc<T>(a: seq<T>, b: seq<T>, c: seq<T>)
    ensures a + b + c == a + (b + c)
  {
  }

  // ---------------------------------------------------------------------
  // Text hit test

  /** The font size a text is drawn at: never below 6 pixels. */
  function FontSize(t: Text, v: View): (f: real)
    ensures f >= 6.0 && f >= t.size * v.scale
    ensures f == 6.0 || f == t.size * v.scale
  {
    Max(6.0, t.size * v.scale)
  }

  /** The clickable box of a text: its rendered width `width` plus 12 pixels
      on either side, and 1.2 font sizes tall centered on its baseline. */
  predicate Hits(t: Text, v: View, s: Point, width: real)
    ensures var pos := WorldToScreen(v, Point(t.x, t.y));
            Hits(t, v, s, width)
            <==> Abs(s.y - pos.y) <= FontSize(t, v) * 0.6
                 && -12.0 <= s.x - pos.x <= width + 12.0
  {
    var pos := WorldToScreen(v, Point(t.x, t.y));
    var h := FontSize(t, v) * 1.2;
    && pos.x - 12.0 <= s.x <= pos.x + width + 12.0
    && pos.y - h / 2.0 <= s.y <= pos.y + h / 2.0
  }

  /** A text's own anchor point always lies inside its hit box. */
  lemma AnchorHits(t: Text, v: View, width: real)
    requires width >= 0.0
    ensures Hits(t, v, WorldToScreen(v, Point(t.x, t.y)), width)
  {
  }

  /** `measure(text, fontSize)` is the canvas' rendered width of `text`. */
  predicate HitsAt(texts: seq<Text>, i: int, v: View, s: Point, measure: (string, real) -> real)
    requires 0 <= i < |texts|
  {
    Hits(texts[i], v, s, measure(texts[i].text, FontSize(texts[i], v)))
  }

  /** textHitTest: the topmost (highest-index) text whose box contains the
      screen point, or none. */
  function HitTest(texts: seq<Text>, v: View, s: Point, measure: (string, real) -> real): (r: Option<nat>)
    ensures r.Some? ==> r.value < |texts| && HitsAt(texts, r.value, v, s, measure)
    ensures r.Some? ==> forall j :: r.value < j < |texts| ==> !HitsAt(texts, j, v, s, measure)
    ensures r.None? ==> forall j :: 0 <= j < |texts| ==> !HitsAt(texts, j, v, s, measure)
    decreases |texts|
  {
    if |texts| == 0 then None
    else
      var last := |texts| - 1;
      if HitsAt(texts, last, v, s, measure) then Some(last)
      else
        var r := HitTest(texts[..last], v, s, measure);
        assert forall j :: 0 <= j < last ==> HitsAt(texts[..last], j, v, s, measure) == HitsAt(texts, j, v, s, measure);
        r
  }

  /** Where two texts overlap under the pointer, the one added later wins. */
  lemma HitTestPrefersNewest(texts: seq<Text>, v: View, s: Point, measure: (string, real) -> real, i: nat, j: nat)
    requires i < j < |texts|
    requires HitsAt(texts, i, v, s, measure) && HitsAt(texts, j, v, s, measure)
    ensures HitTest(texts, v, s, measure).Some?
    ensures HitTest(texts, v, s, measure).value >= j
  {
  }

  // ---------------------------------------------------------------------
  // Text drag and creation

  /** One drag step: the dragged text moves so that its anchor is under the
      pointer; everything else about it is kept. */
  function DragTo(t: Text, v: View, s: Point): (r: Text)
    requires v.scale > 0.0
    ensures r.id == t.id && r.text == t.text && r.size == t.size && r.color == t.color
    ensures WorldToScreen(v, Point(r.x, r.y)) == s
  {
    var w := ScreenToWorld(v, s);
    t.(x := w.x, y := w.y)
  }

  /** The long-press timer: a text typed into the prompt is added at the
      world point where the press began and emitted; a cancelled or empty
      prompt does nothing. */
  function LongPress(b: Board, id: Id, typed: Option<string>, at: Point, brush: Brush): (r: (Board, Option<Text>))
    ensures typed == None || typed == Some("") ==> r == (b, None)
    ensures typed.Some? && typed.value != "" ==>
              && r.1.Some?
              && r.0 == AddText(b, r.1.value)
              && r.1.value == Text(id, typed.value, at.x, at.y, brush.textSize, brush.color)
  {
    match typed
    case None => (b, None)
    case Some(s) =>
      if s == "" then (b, None)
      else
        var t := Text(id, s, at.x, at.y, brush.textSize, brush.color);
        (AddText(b, t), Some(t))
  }
}

=== FILE: gesture.dfy ===
/** The client's input handlers as one state machine. The state mirrors the
    client's separate variables (pinch record, dragged text, drawing flag,
    last world point, long-press timer, mouse mode, pan velocity) rather than
    a single mode, because the handlers set and clear them independently. */
module Gesture {

  import opened Wrappers
  import opened Camera
  import Pinch
  import opened Inertia
  import opened Scene
  import opened Protocol
  import opened Client

  /** `draggingText` holds a reference to a text object. While that object is
      still the one stored at `index` (`attached`), dragging moves the stored
      text; an inbound `init`, `clear` or `text_move` that replaces the object
      detaches it, and later drags change and emit only the detached copy. */
  datatype DragRef = DragRef(index: nat, obj: Text, attached: bool)

  datatype MouseMode = NoMode | PanMode | DragMode | DrawMode

  datatype Ui = Ui(
    view: View,
    board: Board,
    brush: Brush,
    velocity: Point,
    pinch: Option<Pinch.Session>,
    dragging: Option<DragRef>,
    drawing: bool,
    lastWorld: Option<Point>,
    pressAt: Option<Point>,
    mouseDown: bool,
    mouseMode: MouseMode,
    lastMouse: Point)

  const Origin: Point := Point(0.0, 0.0)

  /** The client at page load: home camera, empty board, default brush. */
  const Initial: Ui :=
    Ui(Home, Empty, Brush(3.0, 24.0, "#000000"), Origin, None, None, false, None, None, false, NoMode, Origin)

  /** What every handler preserves: the scale is in bounds, a pinch record
      has a usable start camera, and an attached drag points at its text. */
  ghost predicate Inv(u: Ui) {
    && Valid(u.view)
    && (u.pinch.Some? ==> Pinch.SessionOk(u.pinch.value))
    && (u.dragging.Some? && u.dragging.value.attached ==>
          && u.dragging.value.index < |u.board.texts|
          && u.board.texts[u.dragging.value.index] == u.dragging.value.obj)
  }

  /** The current touches; `dist` is `Math.hypot` of the first two. */
  datatype Touches = Touches(points: seq<Point>, dist: real)

  predicate TouchesOk(t: Touches) {
    && |t.points| >= 1
    && (|t.points| == 2 ==> Pinch.IsDistance(t.points[0], t.points[1], t.dist))
  }

  datatype Input =
    | TouchStart(touches: Touches, now: real)
    | TouchMove(touches: Touches, now: real)
    | TouchEnd
    | LongPressFires(id: Id, typed: Option<string>)
    | MouseDown(button: int, at: Point)
    | MouseMove(at: Point)
    | MouseUp
    | Wheel(deltaY: real, at: Point)
    | Inbound(event: Event)

  predicate InputOk(i: Input) {
    (i.TouchStart? || i.TouchMove?) ==> TouchesOk(i.touches)
  }

  /** The new client state and the request emitted to the relay, if any. */
  datatype Reaction = Reaction(ui: Ui, sent: Option<Request>)

  // ---------------------------------------------------------------------
  // What the branches do

  /** `r` appended and emitted one segment drawn with `u`'s brush from the
      last world point to the world point under screen point `s`, which
      becomes the new last point. */
  ghost predicate DrewSegment(u: Ui, s: Point, r: Reaction)
    requires u.lastWorld.Some?
  {
    && r.sent.Some? && r.sent.value.Draw?
    && var l := r.sent.value.line;
       && l.from == u.lastWorld.value
       && WorldToScreen(u.view, l.to) == s
       && l.size == u.brush.size && l.color == u.brush.color
       && r.ui.board == AddLine(u.board, l)
       && r.ui.lastWorld == Some(l.to)
  }

  /** `r` moved the dragged object under screen point `s`, keeping everything
      but its position, and emitted it; the stored text changed with it only
      if the reference is still attached. */
  ghost predicate MovedDragged(u: Ui, s: Point, r: Reaction)
    requires u.dragging.Some?
  {
    var d := u.dragging.value;
    && r.sent.Some? && r.sent.value.TextMove?
    && var t := r.sent.value.text;
       && t == d.obj.(x := t.x, y := t.y)
       && WorldToScreen(u.view, Point(t.x, t.y)) == s
       && r.ui.dragging == Some(d.(obj := t))
       && r.ui.board.lines == u.board.lines
       && (d.attached ==> d.index < |u.board.texts| && r.ui.board.texts == u.board.texts[d.index := t])
       && (!d.attached ==> r.ui.board == u.board)
  }

  /** Some text's hit box contains screen point `s`. */
  ghost predicate OverText(u: Ui, s: Point, measure: (string, real) -> real) {
    exists j :: 0 <= j < |u.board.texts| && HitsAt(u.board.texts, j, u.view, s, measure)
  }

  /** `d` is an attached reference to the topmost text under `s`. */
  ghost predicate Picked(u: Ui, s: Point, measure: (string, real) -> real, d: DragRef) {
    && d.attached
    && d.index < |u.board.texts|
    && d.obj == u.board.texts[d.index]
    && HitsAt(u.board.texts, d.index, u.view, s, measure)
    && forall j :: d.index < j < |u.board.texts| ==> !HitsAt(u.board.texts, j, u.view, s, measure)
  }

  /** `r`'s camera is `u`'s after the inertia animation has run out: the
      translation moved by the geometric sum of the decaying velocity over the
      frames it ran, the scale kept, and the velocity at rest. */
  ghost predicate CoastedFrom(u: Ui, r: Ui) {
    var n := Coast(u.view, u.velocity.x, u.velocity.y).frames;
    && r.view.scale == u.view.scale
    && r.view.tx == u.view.tx + Travel(u.velocity.x, n)
    && r.view.ty == u.view.ty + Travel(u.velocity.y, n)
    && r.velocity == Origin
  }

  // ---------------------------------------------------------------------
  // Shared steps

  /** Run the inertia animation to its end; it leaves the velocity at zero. */
  function CoastOut(u: Ui): (r: Ui)
    requires Inv(u)
    ensures Inv(r)
    ensures CoastedFrom(u, r)
    ensures r == u.(view := r.view, velocity := r.velocity)
  {
    CoastTravel(u.view, u.velocity.x, u.velocity.y);
    var c := Coast(u.view, u.velocity.x, u.velocity.y);
    u.(view := c.view, velocity := Origin)
  }

  /** Move the dragged text under the pointer and emit it. */
  function DragStep(u: Ui, s: Point): (r: Reaction)
    requires Inv(u) && u.dragging.Some?
    ensures Inv(r.ui)
    ensures MovedDragged(u, s, r)
    ensures r.ui == u.(board := r.ui.board, dragging := r.ui.dragging)
  {
    var d := u.dragging.value;
    var t := DragTo(d.obj, u.view, s);
    var b := if d.attached then u.board.(texts := u.board.texts[d.index := t]) else u.board;
    Reaction(u.(board := b, dragging := Some(d.(obj := t))), Some(TextMove(t)))
  }

  /** Append one segment from the last world point and emit it. */
  function DrawStep(u: Ui, s: Point): (r: Reaction)
    requires Inv(u) && u.lastWorld.Some?
    ensures Inv(r.ui)
    ensures DrewSegment(u, s, r)
    ensures r.ui == u.(board := r.ui.board, lastWorld := r.ui.lastWorld)
  {
    var d := DrawSegment(u.board, u.view, u.lastWorld.value, s, u.brush);
    Reaction(u.(board := d.board, lastWorld := Some(d.last)), Some(Draw(d.sent)))
  }

  // ---------------------------------------------------------------------
  // Handlers

  /** touchstart: two touches begin a pinch; one touch on a text begins a
      drag; otherwise drawing begins and the long-press timer is armed. */
  function OnTouchStart(u: Ui, t: Touches, now: real, measure: (string, real) -> real): (r: Ui)
    requires Inv(u) && TouchesOk(t)
    ensures Inv(r)
    ensures r.board == u.board && r.view == u.view
    ensures |t.points| == 2 ==>
              && r.pinch == Some(Pinch.Start(u.view, t.points[0], t.points[1], t.dist, now))
              && r.pinch.value.startView == u.view && r.pinch.value.startDist == t.dist
              && r.pinch.value.lastTime == now
              && Pinch.AnchorWorld(r.pinch.value) == ScreenToWorld(u.view, Pinch.Mid(t.points[0], t.points[1]))
              && r == u.(pinch := r.pinch)
    ensures |t.points| != 2 && OverText(u, t.points[0], measure) ==>
              && r.dragging.Some? && Picked(u, t.points[0], measure, r.dragging.value)
              && r == u.(dragging := r.dragging)
    ensures |t.points| != 2 && !OverText(u, t.points[0], measure) ==>
              && r.drawing && r.lastWorld.Some? && r.pressAt == r.lastWorld
              && WorldToScreen(u.view, r.lastWorld.value) == t.points[0]
              && r == u.(drawing := true, lastWorld := r.lastWorld, pressAt := r.pressAt)
  {
    if |t.points| == 2 then
      u.(pinch := Some(Pinch.Start(u.view, t.points[0], t.points[1], t.dist, now)))
    else
      match HitTest(u.board.texts, u.view, t.points[0], measure)
      case Some(i) => u.(dragging := Some(DragRef(i, u.board.texts[i], true)))
      case None =>
        var w := ScreenToWorld(u.view, t.points[0]);
        u.(drawing := true, lastWorld := Some(w), pressAt := Some(w))
  }

  /** touchmove: cancel the long press; then pinch, drag or draw, in that
      order of priority. */
  function OnTouchMove(u: Ui, t: Touches, now: real): (r: Reaction)
    requires Inv(u) && TouchesOk(t)
    ensures Inv(r.ui)
    ensures r.ui.pressAt == None
    ensures |t.points| == 2 && u.pinch.Some? ==>
              var p := u.pinch.value;
              var m := Pinch.Mid(t.points[0], t.points[1]);
              var dt := Max(1.0, now - p.lastTime);
              && r.sent == None && r.ui.board == u.board
              && r.ui.view.scale == Pinch.NewScale(p, t.dist)
              && WorldToScreen(r.ui.view, Pinch.AnchorWorld(p))
                   == Point(m.x + (m.x - p.lastCenter.x), m.y + (m.y - p.lastCenter.y))
              && r.ui.pinch == Some(p.(lastCenter := m, lastTime := now))
              && r.ui.velocity.x * dt == (m.x - p.lastCenter.x) * Pinch.FrameMs
              && r.ui.velocity.y * dt == (m.y - p.lastCenter.y) * Pinch.FrameMs
              && r.ui == u.(pressAt := None, view := r.ui.view, pinch := r.ui.pinch, velocity := r.ui.velocity)
    ensures !(|t.points| == 2 && u.pinch.Some?) && u.dragging.Some? ==>
              && MovedDragged(u, t.points[0], r)
              && r.ui == u.(pressAt := None, board := r.ui.board, dragging := r.ui.dragging)
    ensures !(|t.points| == 2 && u.pinch.Some?) && u.dragging.None? && u.drawing && u.lastWorld.Some? ==>
              && DrewSegment(u, t.points[0], r)
              && r.ui == u.(pressAt := None, board := r.ui.board, lastWorld := r.ui.lastWorld)
    ensures !(|t.points| == 2 && u.pinch.Some?) && u.dragging.None? && !(u.drawing && u.lastWorld.Some?) ==>
              r == Reaction(u.(pressAt := None), None)
  {
    var u := u.(pressAt := None);
    if |t.points| == 2 && u.pinch.Some? then
      var f := Pinch.Move(u.pinch.value, t.points[0], t.points[1], t.dist, now);
      Reaction(u.(view := f.view, pinch := Some(f.session), velocity := f.velocity), None)
    else if u.dragging.Some? then DragStep(u, t.points[0])
    else if u.drawing && u.lastWorld.Some? then DrawStep(u, t.points[0])
    else Reaction(u, None)
  }

  /** touchend: cancel the long press; a pinch released faster than 0.2
      pixels per frame on some axis coasts; every touch gesture ends. */
  function OnTouchEnd(u: Ui): (r: Ui)
    requires Inv(u)
    ensures Inv(r)
    ensures r.pressAt == None
    ensures r.pinch == None && r.dragging == None && r.lastWorld == None && !r.drawing
    ensures r.board == u.board && r.mouseDown == u.mouseDown && r.mouseMode == u.mouseMode
    ensures u.pinch.Some? && (Abs(u.velocity.x) > 0.2 || Abs(u.velocity.y) > 0.2) ==> CoastedFrom(u, r)
    ensures u.pinch.None? || (Abs(u.velocity.x) <= 0.2 && Abs(u.velocity.y) <= 0.2) ==>
              r.view == u.view && r.velocity == u.velocity
    ensures r == u.(pressAt := None, pinch := None, dragging := None, lastWorld := None, drawing := false,
                    view := r.view, velocity := r.velocity)
  {
    var u := u.(pressAt := None);
    var u :=
      if u.pinch.None? then u
      else if Abs(u.velocity.x) > 0.2 || Abs(u.velocity.y) > 0.2 then CoastOut(u).(pinch := None)
      else u.(pinch := None);
    u.(drawing := false, dragging := None, lastWorld := None)
  }

  /** The long-press timer fires if it is still armed: a non-empty prompt
      answer becomes a text at the press point in the brush's text size and
      colour, added locally and emitted. */
  function OnLongPress(u: Ui, id: Id, typed: Option<string>): (r: Reaction)
    requires Inv(u)
    ensures Inv(r.ui)
    ensures r.ui.pressAt == None
    ensures u.pressAt.None? ==> r == Reaction(u, None)
    ensures u.pressAt.Some? && typed.Some? && typed.value != "" ==>
              var at := u.pressAt.value;
              r.sent == Some(TextAdd(Text(id, typed.value, at.x, at.y, u.brush.textSize, u.brush.color)))
    ensures typed == None || typed == Some("") ==> r.sent == None
    ensures r.sent.Some? ==> r.sent.value.TextAdd? && r.ui.board == AddText(u.board, r.sent.value.text)
    ensures r.sent.None? ==> r.ui.board == u.board
    ensures r.ui == u.(pressAt := None, board := r.ui.board)
  {
    match u.pressAt
    case None => Reaction(u, None)
    case Some(at) =>
      var (b, t) := LongPress(u.board, id, typed, at, u.brush);
      var sent := match t case None => None case Some(t) => Some(TextAdd(t));
      Reaction(u.(board := b, pressAt := None), sent)
  }

  /** mousedown: the middle or right button pans; the left button drags the
      text under it, or else starts drawing. */
  function OnMouseDown(u: Ui, button: int, p: Point, measure: (string, real) -> real): (r: Ui)
    requires Inv(u)
    ensures Inv(r)
    ensures r.mouseDown && r.board == u.board && r.view == u.view
    ensures button == 1 || button == 2 <==> r.mouseMode == PanMode
    ensures (button == 1 || button == 2) ==> r == u.(mouseMode := PanMode, mouseDown := true, lastMouse := p)
    ensures !(button == 1 || button == 2) && OverText(u, p, measure) ==>
              && r.dragging.Some? && Picked(u, p, measure, r.dragging.value)
              && r == u.(mouseDown := true, mouseMode := DragMode, dragging := r.dragging)
    ensures !(button == 1 || button == 2) && !OverText(u, p, measure) ==>
              && r.lastWorld.Some? && WorldToScreen(u.view, r.lastWorld.value) == p
              && r == u.(mouseDown := true, mouseMode := DrawMode, lastWorld := r.lastWorld)
  {
    if button == 1 || button == 2 then
      u.(mouseMode := PanMode, mouseDown := true, lastMouse := p)
    else
      match HitTest(u.board.texts, u.view, p, measure)
      case Some(i) => u.(mouseMode := DragMode, dragging := Some(DragRef(i, u.board.texts[i], true)), mouseDown := true)
      case None => u.(mouseMode := DrawMode, mouseDown := true, lastWorld := Some(ScreenToWorld(u.view, p)))
  }

  /** A mouse move that finds nothing to do: no mode, a drag with no
      dragged text, or a draw with no last point. */
  predicate MoveIgnored(u: Ui) {
    || u.mouseMode == NoMode
    || (u.mouseMode == DragMode && u.dragging.None?)
    || (u.mouseMode == DrawMode && u.lastWorld.None?)
  }

  /** mousemove while a button is down: pan, drag or draw. With no last
      point the draw branch fails on `null` before changing anything. */
  function OnMouseMove(u: Ui, p: Point): (r: Reaction)
    requires Inv(u)
    ensures Inv(r.ui)
    ensures !u.mouseDown ==> r == Reaction(u, None)
    ensures u.mouseDown && u.mouseMode == PanMode ==>
              && r.sent == None && r.ui.board == u.board
              && r.ui.view.scale == u.view.scale
              && ScreenToWorld(r.ui.view, p) == ScreenToWorld(u.view, u.lastMouse)
              && r.ui.velocity == Point(p.x - u.lastMouse.x, p.y - u.lastMouse.y)
              && r.ui.lastMouse == p
    ensures u.mouseDown && u.mouseMode == PanMode ==>
              r.ui == u.(view := r.ui.view, velocity := r.ui.velocity, lastMouse := p)
    ensures u.mouseDown && u.mouseMode == DragMode && u.dragging.Some? ==>
              && MovedDragged(u, p, r)
              && r.ui == u.(board := r.ui.board, dragging := r.ui.dragging)
    ensures u.mouseDown && u.mouseMode == DrawMode && u.lastWorld.Some? ==>
              && DrewSegment(u, p, r)
              && r.ui == u.(board := r.ui.board, lastWorld := r.ui.lastWorld)
    ensures u.mouseDown && MoveIgnored(u) ==> r == Reaction(u, None)
  {
    if !u.mouseDown then Reaction(u, None)
    else match u.mouseMode
      case PanMode =>
        var (v, vel) := MousePan(u.view, u.lastMouse, p);
        Reaction(u.(view := v, velocity := vel, lastMouse := p), None)
      case DragMode =>
        if u.dragging.Some? then DragStep(u, p) else Reaction(u, None)
      case DrawMode =>
        if u.lastWorld.Some? then DrawStep(u, p) else Reaction(u, None)
      case NoMode => Reaction(u, None)
  }

  /** mouseup: end the mouse gesture and coast if the last pan velocity
      exceeds one pixel per event on some axis. */
  function OnMouseUp(u: Ui): (r: Ui)
    requires Inv(u)
    ensures Inv(r)
    ensures !r.mouseDown && r.mouseMode == NoMode && r.dragging == None && r.lastWorld == None
    ensures r.board == u.board && r.pinch == u.pinch && r.pressAt == u.pressAt
    ensures Abs(u.velocity.x) > 1.0 || Abs(u.velocity.y) > 1.0 ==> CoastedFrom(u, r)
    ensures Abs(u.velocity.x) <= 1.0 && Abs(u.velocity.y) <= 1.0 ==> r.view == u.view && r.velocity == u.velocity
    ensures r == u.(mouseDown := false, mouseMode := NoMode, dragging := None, lastWorld := None,
                    view := r.view, velocity := r.velocity)
  {
    var u := u.(mouseDown := false, mouseMode := NoMode, dragging := None, lastWorld := None);
    if Abs(u.velocity.x) > 1.0 || Abs(u.velocity.y) > 1.0 then CoastOut(u) else u
  }

  /** Whether an inbound event replaces the object a drag refers to: `init`
      and `clear` replace every object, and `text_move` replaces the first
      stored text with the moved id, which detaches the drag only when that
      first match is the dragged one. */
  function Detach(d: DragRef, texts: seq<Text>, e: Event): (r: DragRef)
    ensures r.index == d.index && r.obj == d.obj
    ensures (e.InitEvent? || e.ClearEvent?) ==> !r.attached
    ensures (e.DrawEvent? || e.TextAddEvent? || e.ClearDeniedEvent?) ==> r == d
    ensures (e.TextMoveEvent? && d.index < |texts| && texts[d.index].id == e.text.id
             && NoIdBefore(texts, d.index, e.text.id)) ==> !r.attached
    ensures e.TextMoveEvent? && d.index < |texts| && texts[d.index].id != e.text.id ==> r == d
    ensures e.TextMoveEvent? && d.index < |texts| && !NoIdBefore(texts, d.index, e.text.id) ==> r == d
    ensures e.TextMoveEvent? && d.index >= |texts| ==> r == d
  {
    if e.InitEvent? || e.ClearEvent? then d.(attached := false)
    else if e.TextMoveEvent? && FindFirst(texts, e.text.id) == Some(d.index) then d.(attached := false)
    else d
  }

  /** A socket event: merge it into the board; the camera is never touched
      and nothing is sent. */
  function OnInbound(u: Ui, e: Event): (r: Ui)
    requires Inv(u)
    ensures Inv(r)
    ensures r.board == Receive(u.board, e)
    ensures r.view == u.view
    ensures u.dragging.None? ==> r.dragging.None?
    ensures u.dragging.Some? ==> r.dragging == Some(Detach(u.dragging.value, u.board.texts, e))
    ensures r == u.(board := r.board, dragging := r.dragging)
  {
    var d := match u.dragging case None => None case Some(d) => Some(Detach(d, u.board.texts, e));
    u.(board := Receive(u.board, e), dragging := d)
  }

  /** Dispatch one input event; `measure` is the canvas' text width. */
  function Step(u: Ui, i: Input, measure: (string, real) -> real): (r: Reaction)
    requires Inv(u) && InputOk(i)
    ensures Inv(r.ui)
    ensures r.sent.Some? ==> i.TouchMove? || i.MouseMove? || i.LongPressFires?
    ensures r.ui.view != u.view ==> i.TouchMove? || i.TouchEnd? || i.MouseMove? || i.MouseUp? || i.Wheel?
  {
    match i
    case TouchStart(t, now) => Reaction(OnTouchStart(u, t, now, measure), None)
    case TouchMove(t, now) => OnTouchMove(u, t, now)
    case TouchEnd => Reaction(OnTouchEnd(u), None)
    case LongPressFires(id, typed) => OnLongPress(u, id, typed)
    case MouseDown(b, p) => Reaction(OnMouseDown(u, b, p, measure), None)
    case MouseMove(p) => OnMouseMove(u, p)
    case MouseUp => Reaction(OnMouseUp(u), None)
    case Wheel(dy, p) => Reaction(u.(view := WheelZoom(u.view, dy, p)), None)
    case Inbound(e) => Reaction(OnInbound(u, e), None)
  }

  /** After any sequence of input events, starting from page load, the scale
      is still within bounds and the drag reference is coherent. */
  function Run(u: Ui, inputs: seq<Input>, measure: (string, real) -> real): (r: Ui)
    requires Inv(u)
    requires forall k :: 0 <= k < |inputs| ==> InputOk(inputs[k])
    ensures Inv(r)
    ensures MinScale <= r.view.scale <= MaxScale
    decreases |inputs|
  {
    if |inputs| == 0 then u
    else Run(Step(u, inputs[0], measure).ui, inputs[1..], measure)
  }

  /** At page load the camera is at scale 1 with no translation, the board
      is empty, the brush is 3 pixels wide with 24-pixel black text, no
      gesture is in progress, and the invariant holds. */
  lemma InitialInv()
    ensures Inv(Initial)
    ensures Initial.view.scale == 1.0 && Initial.view.tx == 0.0 && Initial.view.ty == 0.0
    ensures Initial.board.lines == [] && Initial.board.texts == []
    ensures Initial.brush.size == 3.0 && Initial.brush.textSize == 24.0 && Initial.brush.color == "#000000"
    ensures Initial.pinch.None? && Initial.dragging.None? && !Initial.drawing
    ensures Initial.lastWorld.None? && Initial.pressAt.None? && !Initial.mouseDown
  {
  }

  /** Whatever a client emits it has already applied to its own board by the
      rule the relay will apply: a segment or text is appended at the end, and
      a drag of a text that is the first with its id replaces exactly what the
      relay's `text_move` replaces. */
  lemma {:induction false} SentIsAppliedLocally(u: Ui, i: Input, measure: (string, real) -> real)
    requires Inv(u) && InputOk(i)
    ensures var r := Step(u, i, measure);
            && (r.sent.Some? && r.sent.value.Draw? ==> r.ui.board == AddLine(u.board, r.sent.value.line))
            && (r.sent.Some? && r.sent.value.TextAdd? ==> r.ui.board == AddText(u.board, r.sent.value.text))
            && (r.sent.Some? && r.sent.value.TextMove? && u.dragging.Some? && u.dragging.value.attached
                && NoIdBefore(u.board.texts, u.dragging.value.index, u.dragging.value.obj.id)
                ==> r.ui.board == MoveText(u.board, r.sent.value.text))
  {
    match i
    case TouchMove(t, now) =>
      if u.dragging.Some? {
        DragStepIsMove(u.(pressAt := None), t.points[0]);
      }
    case MouseMove(p) =>
      if u.dragging.Some? {
        DragStepIsMove(u, p);
      }
    case _ =>
  }

  /** A drag step on an attached text that is the first with its id changes
      the board exactly as the relay's `text_move` will. */
  lemma DragStepIsMove(u: Ui, s: Point)
    requires Inv(u) && u.dragging.Some?
    ensures var r := DragStep(u, s);
            u.dragging.value.attached && NoIdBefore(u.board.texts, u.dragging.value.index, u.dragging.value.obj.id)
            ==> r.ui.board == MoveText(u.board, r.sent.value.text)
  {
    var d := u.dragging.value;
    var t := DragStep(u, s).sent.value.text;
    if d.attached && NoIdBefore(u.board.texts, d.index, d.obj.id) {
      assert u.board.texts[d.index].id == t.id;
      assert ReplaceFirst(u.board.texts, t) == u.board.texts[d.index := t];
    }
  }
}

=== FILE: inertia.dfy ===
/** Inertial coasting after a pan or pinch: every animation frame moves the
    camera by the velocity and then decays the velocity by 8%, until neither
    component exceeds 0.1 pixels per frame. */
module Inertia {

  import opened Camera

  const Decay: real := 0.92
  const StopSpeed: real := 0.1

  /** The condition under which another frame is requested. */
  predicate Moving(vx: real, vy: real)
    ensures Moving(vx, vy) <==> !(-StopSpeed <= vx <= StopSpeed && -StopSpeed <= vy <= StopSpeed)
  {
    Abs(vx) > StopSpeed || Abs(vy) > StopSpeed
  }

  function Pow(x: real, n: nat): (r: real) {
    if n == 0 then 1.0 else x * Pow(x, n - 1)
  }

  /** The velocity `k` frames after starting from `v`. */
  function Speed(v: real, k: nat): (s: real) {
    v * Pow(Decay, k)
  }

  /** A natural number that every continuing frame lowers by at least one. */
  function Measure(vx: real, vy: real): (m: nat) {
    ((Abs(vx) + Abs(vy)) * 125.0).Floor
  }

  lemma DecayLowersMeasure(vx: real, vy: real)
    requires Moving(vx * Decay, vy * Decay)
    ensures Measure(vx * Decay, vy * Decay) < Measure(vx, vy)
  {
    var s := Abs(vx) + Abs(vy);
    assert Abs(vx * Decay) == Abs(vx) * Decay;
    assert Abs(vy * Decay) == Abs(vy) * Decay;
    var s' := Abs(vx * Decay) + Abs(vy * Decay);
    assert s' == s * Decay;
    assert s' > StopSpeed;
    assert s' * 125.0 + 1.0 <= s * 125.0;
  }

  datatype Coasted = Coasted(view: View, frames: nat)

  /** The `step` of startInertia run until it stops asking for another frame.
      The first frame always runs; when coasting stops the velocity is zero. */
  function Coast(v: View, vx: real, vy: real): (r: Coasted)
    ensures r.view.scale == v.scale
    ensures 1 <= r.frames <= Measure(vx, vy) + 1
    decreases Measure(vx, vy)
  {
    var next := View(v.scale, v.tx + vx, v.ty + vy);
    if Moving(vx * Decay, vy * Decay) then
      DecayLowersMeasure(vx, vy);
      var r := Coast(next, vx * Decay, vy * Decay);
      Coasted(r.view, r.frames + 1)
    else
      Coasted(next, 1)
  }

  lemma SpeedStep(v: real, k: nat)
    ensures Speed(v * Decay, k) == Speed(v, k + 1)
  {
    calc {
      Speed(v * Decay, k);
      v * Decay * Pow(Decay, k);
      v * (Decay * Pow(Decay, k));
      v * Pow(Decay, k + 1);
    }
  }

  /** Coasting stops at the first frame after which the decayed velocity is
      slow on both axes: every earlier frame still had a fast component. */
  lemma {:induction false} CoastStopsAtFirstSlowFrame(v: View, vx: real, vy: real)
    ensures var n := Coast(v, vx, vy).frames;
            && !Moving(Speed(vx, n), Speed(vy, n))
            && forall k :: 1 <= k < n ==> Moving(Speed(vx, k), Speed(vy, k))
    decreases Measure(vx, vy)
  {
    var next := View(v.scale, v.tx + vx, v.ty + vy);
    var n := Coast(v, vx, vy).frames;
    if Moving(vx * Decay, vy * Decay) {
      DecayLowersMeasure(vx, vy);
      CoastStopsAtFirstSlowFrame(next, vx * Decay, vy * Decay);
      assert n - 1 == Coast(next, vx * Decay, vy * Decay).frames;
      SpeedStep(vx, n - 1);
      SpeedStep(vy, n - 1);
      forall k | 1 <= k < n
        ensures Moving(Speed(vx, k), Speed(vy, k))
      {
        if k == 1 {
          assert Speed(vx, 1) == vx * Decay;
          assert Speed(vy, 1) == vy * Decay;
        } else {
          SpeedStep(vx, k - 1);
          SpeedStep(vy, k - 1);
        }
      }
    } else {
      assert Speed(vx, 1) == vx * Decay;
      assert Speed(vy, 1) == vy * Decay;
    }
  }

  /** The sum of the velocities of the first `n` frames, in closed form. */
  function Travel(v: real, n: nat): (d: real) {
    v * (1.0 - Pow(Decay, n)) / (1.0 - Decay)
  }

  /** Coasting moves the camera by the geometric series of the decaying
      velocity, one term per frame. */
  lemma {:induction false} CoastTravel(v: View, vx: real, vy: real)
    ensures var r := Coast(v, vx, vy);
            r.view.tx == v.tx + Travel(vx, r.frames)
            && r.view.ty == v.ty + Travel(vy, r.frames)
    decreases Measure(vx, vy)
  {
    var next := View(v.scale, v.tx + vx, v.ty + vy);
    if Moving(vx * Decay, vy * Decay) {
      DecayLowersMeasure(vx, vy);
      CoastTravel(next, vx * Decay, vy * Decay);
      var rest := Coast(next, vx * Decay, vy * Decay);
      assert Coast(v, vx, vy) == Coasted(rest.view, rest.frames + 1);
      TravelStep(vx, rest.frames);
      TravelStep(vy, rest.frames);
    } else {
      assert Coast(v, vx, vy) == Coasted(next, 1);
      TravelOne(vx);
      TravelOne(vy);
    }
  }

  lemma TravelOne(v: real)
    ensures Travel(v, 1) == v
  {
    assert Pow(Decay, 1) == Decay;
  }

  lemma TravelStep(v: real, n: nat)
    ensures v + Travel(v * Decay, n) == Travel(v, n + 1)
  {
    var p := Pow(Decay, n);
    assert Pow(Decay, n + 1) == Decay * p;
    calc {
      v + Travel(v * Decay, n);
      v + v * Decay * (1.0 - p) / 0.08;
      v * (0.08 + Decay - Decay * p) / 0.08;
      v * (1.0 - Decay * p) / 0.08;
      Travel(v, n + 1);
    }
  }

  lemma PowNonNegative(x: real, n: nat)
    requires x >= 0.0
    ensures Pow(x, n) >= 0.0
  {
    if n > 0 {
      PowNonNegative(x, n - 1);
    }
  }

  lemma PowAdd(x: real, a: nat, b: nat)
    ensures Pow(x, a + b) == Pow(x, a) * Pow(x, b)
  {
    if a > 0 {
      PowAdd(x, a - 1, b);
    }
  }

  /** After 100 frames the velocity has shrunk below a thousandth. */
  lemma HundredFramesDecay()
    ensures Pow(Decay, 100) < 0.001
  {
    TenFramesHalve();
    SquareBelow(Decay, 10, 0.5);
    SquareBelow(Decay, 20, 0.25);
    SquareBelow(Decay, 40, 0.0625);
    PowNonNegative(Decay, 80);
    PowNonNegative(Decay, 20);
    PowAdd(Decay, 80, 20);
    ProductBelow(Pow(Decay, 80), Pow(Decay, 20), 0.00390625, 0.25);
  }

  /** After 10 frames the velocity has more than halved. */
  lemma TenFramesHalve()
    ensures Pow(Decay, 10) < 0.5
  {
    assert Pow(Decay, 2) == 0.8464;
    PowAdd(Decay, 2, 2);
    PowAdd(Decay, 4, 4);
    PowAdd(Decay, 8, 2);
  }

  /** Squaring a bound on a power bounds the power of twice the exponent. */
  lemma SquareBelow(x: real, n: nat, b: real)
    requires x >= 0.0 && Pow(x, n) < b
    ensures Pow(x, n + n) < b * b
  {
    PowNonNegative(x, n);
    PowAdd(x, n, n);
    ProductBelow(Pow(x, n), Pow(x, n), b, b);
  }

  lemma ProductBelow(a: real, b: real, c: real, d: real)
    requires 0.0 <= a < c && 0.0 <= b < d
    ensures a * b < c * d
  {
    assert a * b <= c * b;
    assert c * b < c * d;
  }

  /** A coast that starts at no more than 100 pixels per frame on each axis
      ends within 100 frames. */
  lemma CoastWithin100Frames(v: View, vx: real, vy: real)
    requires Abs(vx) <= 100.0 && Abs(vy) <= 100.0
    ensures Coast(v, vx, vy).frames <= 100
  {
    var n := Coast(v, vx, vy).frames;
    CoastStopsAtFirstSlowFrame(v, vx, vy);
    if n > 100 {
      SlowAfter100Frames(vx);
      SlowAfter100Frames(vy);
      assert false;
    }
  }

  lemma SlowAfter100Frames(v: real)
    requires Abs(v) <= 100.0
    ensures Abs(Speed(v, 100)) <= StopSpeed
  {
    HundredFramesDecay();
    PowNonNegative(Decay, 100);
    ScaledBelow(v, Pow(Decay, 100));
  }

  lemma ScaledBelow(v: real, p: real)
    requires Abs(v) <= 100.0 && 0.0 <= p < 0.001
    ensures Abs(v * p) <= StopSpeed
  {
    assert Abs(v * p) == Abs(v) * p;
    assert Abs(v) * p <= 100.0 * p;
  }
}

=== FILE: net.dfy ===
/** The whole system as one state machine: the relay's board and the board
    of every connected client. Each action is a client's local edit, the
    request it emits, the relay's handler, and the delivery of the relay's
    event to its addressees. Delivery is immediate and in order here. */
module Net {

  import opened Wrappers
  import opened Scene
  import opened Protocol
  import opened Relay
  import opened Client

  datatype Net = Net(relay: Board, clients: map<ClientId, Board>)

  datatype Action =
    | Joins(c: ClientId)
    | Leaves(c: ClientId)
    | Draws(c: ClientId, line: Line)
    | Writes(c: ClientId, text: Text)
    | Drags(c: ClientId, index: nat, text: Text, attached: bool)
    | Clears(c: ClientId, payload: ClearPayload)

  /** A request comes from a connected client; an attached drag names one
      of that client's texts and keeps its id. A detached drag moves a copy
      the client no longer stores (see `Gesture.DragRef`), so it may name
      anything. */
  predicate ActionOk(n: Net, a: Action) {
    && (!a.Joins? ==> a.c in n.clients)
    && (a.Drags? && a.attached ==>
          a.index < |n.clients[a.c].texts| && n.clients[a.c].texts[a.index].id == a.text.id)
  }

  /** Hand the relay's event to each connected addressee. */
  function Deliver(clients: map<ClientId, Board>, e: Emit): (r: map<ClientId, Board>)
    ensures r.Keys == clients.Keys
  {
    map c | c in clients :: if c in e.to then Receive(clients[c], e.event) else clients[c]
  }

  /** The sender applies `local`, then the relay handles `req` and its event
      is delivered. */
  function Forward(n: Net, c: ClientId, local: Board, req: Request): (r: Net)
    requires c in n.clients
    ensures r.clients.Keys == n.clients.Keys
  {
    var o := Handle(n.relay, n.clients.Keys, c, req);
    Net(o.state, Deliver(n.clients[c := local], o.emit))
  }

  function Step(n: Net, a: Action): (r: Net)
    requires ActionOk(n, a)
    ensures a.Joins? ==> r.clients.Keys == n.clients.Keys + {a.c}
    ensures a.Leaves? ==> r.clients.Keys == n.clients.Keys - {a.c}
    ensures !a.Joins? && !a.Leaves? ==> r.clients.Keys == n.clients.Keys
  {
    match a
    case Joins(c) =>
      var o := OnConnect(n.relay, c);
      Net(o.state, Deliver(n.clients[c := Empty], o.emit))
    case Leaves(c) => Net(n.relay, n.clients - {c})
    case Draws(c, l) => Forward(n, c, AddLine(n.clients[c], l), Draw(l))
    case Writes(c, t) => Forward(n, c, AddText(n.clients[c], t), TextAdd(t))
    case Drags(c, i, t, attached) =>
      var b := n.clients[c];
      Forward(n, c, if attached then b.(texts := b.texts[i := t]) else b, TextMove(t))
    case Clears(c, p) => Forward(n, c, n.clients[c], ClearRequest(p))
  }

  /** Every connected client shows exactly the relay's board. */
  ghost predicate Synced(n: Net) {
    forall c :: c in n.clients ==> n.clients[c] == n.relay
  }

  /** With immediate delivery, every action keeps the clients in step with
      the relay, provided a drag is attached and its text is the first with
      its id (the relay and the other clients move the first match, the
      dragging client moves the one it grabbed, or nothing when detached). */
  lemma StepKeepsSynced(n: Net, a: Action)
    requires Synced(n) && ActionOk(n, a)
    requires a.Drags? ==> a.attached && NoIdBefore(n.relay.texts, a.index, a.text.id)
    ensures Synced(Step(n, a))
  {
    match a
    case Joins(c) => JoinKeepsSynced(n, c);
    case Leaves(c) =>
    case Draws(c, l) => DrawKeepsSynced(n, c, l);
    case Writes(c, t) => WriteKeepsSynced(n, c, t);
    case Drags(c, i, t, _) => DragKeepsSynced(n, c, i, t);
    case Clears(c, p) => ClearKeepsSynced(n, c, p);
  }

  lemma JoinKeepsSynced(n: Net, c: ClientId)
    requires Synced(n)
    ensures Synced(Step(n, Joins(c)))
  {
    DeliverAgrees(n.clients[c := Empty], Emit({c}, InitEvent(Some(n.relay.lines), Some(n.relay.texts))), n.relay);
  }

  lemma DrawKeepsSynced(n: Net, c: ClientId, l: Line)
    requires Synced(n) && c in n.clients
    ensures Synced(Step(n, Draws(c, l)))
  {
    var o := OnDraw(n.relay, n.clients.Keys, c, l);
    DeliverAgrees(n.clients[c := o.state], o.emit, o.state);
  }

  lemma WriteKeepsSynced(n: Net, c: ClientId, t: Text)
    requires Synced(n) && c in n.clients
    ensures Synced(Step(n, Writes(c, t)))
  {
    var o := OnTextAdd(n.relay, n.clients.Keys, c, t);
    DeliverAgrees(n.clients[c := o.state], o.emit, o.state);
  }

  lemma DragKeepsSynced(n: Net, c: ClientId, i: nat, t: Text)
    requires Synced(n) && ActionOk(n, Drags(c, i, t, true))
    requires NoIdBefore(n.relay.texts, i, t.id)
    ensures Synced(Step(n, Drags(c, i, t, true)))
  {
    var o := OnTextMove(n.relay, n.clients.Keys, c, t);
    assert o.state.texts == n.relay.texts[i := t];
    DeliverAgrees(n.clients[c := o.state], o.emit, o.state);
  }

  lemma ClearKeepsSynced(n: Net, c: ClientId, p: ClearPayload)
    requires Synced(n) && c in n.clients
    ensures Synced(Step(n, Clears(c, p)))
  {
    var o := OnClear(n.relay, n.clients.Keys, c, p);
    DeliverAgrees(n.clients, o.emit, o.state);
  }

  /** Delivery leaves every client at `target` when each addressee reaches
      it by receiving the event and each other client already holds it. */
  lemma DeliverAgrees(clients: map<ClientId, Board>, e: Emit, target: Board)
    requires forall c :: c in clients && c in e.to ==> Receive(clients[c], e.event) == target
    requires forall c :: c in clients && c !in e.to ==> clients[c] == target
    ensures forall c :: c in Deliver(clients, e) ==> Deliver(clients, e)[c] == target
  {
  }

  /** A joining client adopts the relay's board and nobody else changes. */
  lemma JoinAdoptsRelayBoard(n: Net, c: ClientId)
    ensures var r := Step(n, Joins(c));
            && r.relay == n.relay
            && r.clients[c] == n.relay
            && forall d :: d in n.clients && d != c ==> r.clients[d] == n.clients[d]
  {
  }

  /** A clear without the password changes nothing anywhere. */
  lemma DeniedClearChangesNothing(n: Net, c: ClientId, p: ClearPayload)
    requires c in n.clients
    requires !Authorized(p)
    ensures Step(n, Clears(c, p)) == n
  {
    var r := Step(n, Clears(c, p));
    assert r.clients == n.clients;
  }

  /** A clear with the password empties the relay and every client,
      whatever they held before. */
  lemma AuthorizedClearEmptiesAll(n: Net, c: ClientId)
    requires c in n.clients
    ensures var r := Step(n, Clears(c, Object(Some(ClearPassword))));
            && r.relay == Empty
            && forall d :: d in r.clients ==> r.clients[d] == Empty
  {
  }

  /** Because `text_add` does not deduplicate ids, two texts can share one;
      dragging the later of them (the one the hit test picks) then moves it
      on the dragging client while the relay and the other clients move the
      earlier one, and the boards diverge. */
  lemma DuplicateIdDragDiverges()
    ensures var t := Text(7, "a", 0.0, 0.0, 24.0, "#000000");
            var b := Board([], [t, t]);
            var n := Net(b, map[1 := b, 2 := b]);
            var a := Drags(1, 1, t.(x := 50.0), true);
            var r := Step(n, a);
            && Synced(n) && ActionOk(n, a) && !Synced(r)
            && r.relay.texts == [t.(x := 50.0), t]
            && r.clients[1].texts == [t, t.(x := 50.0)]
            && r.clients[1] != r.relay
            && r.clients[2] == r.relay
  {
    var t := Text(7, "a", 0.0, 0.0, 24.0, "#000000");
    var moved := t.(x := 50.0);
    var b := Board([], [t, t]);
    var n := Net(b, map[1 := b, 2 := b]);
    var r := Step(n, Drags(1, 1, moved, true));
    assert FindFirst(b.texts, 7) == Some(0);
    assert r.relay.texts == [moved, t];
    assert r.clients[1].texts == [t, moved];
  }

  /** A drag that outlives an inbound `init` or `text_move` moves a detached
      copy: the dragging client's board stays as it is, yet the relay and the
      other clients move the stored text with that id, and the boards
      diverge. */
  lemma DetachedDragDiverges()
    ensures var t := Text(7, "a", 0.0, 0.0, 24.0, "#000000");
            var b := Board([], [t]);
            var n := Net(b, map[1 := b, 2 := b]);
            var a := Drags(1, 0, t.(x := 50.0), false);
            var r := Step(n, a);
            && Synced(n) && ActionOk(n, a) && !Synced(r)
            && r.relay.texts == [t.(x := 50.0)]
            && r.clients[2] == r.relay
            && r.clients[1] == b
  {
    var t := Text(7, "a", 0.0, 0.0, 24.0, "#000000");
    var moved := t.(x := 50.0);
    var b := Board([], [t]);
    var n := Net(b, map[1 := b, 2 := b]);
    var r := Step(n, Drags(1, 0, moved, false));
    assert FindFirst(b.texts, 7) == Some(0);
    assert r.relay.texts == [moved];
    assert r.clients[1].texts == [t];
  }

  /** A drag detached by an authorized `clear` is harmless: every board is
      empty, so its `text_move` matches nothing anywhere and the system does
      not change. */
  lemma DragAfterClearIsHarmless(n: Net, c: ClientId, d: ClientId, i: nat, t: Text)
    requires c in n.clients && d in n.clients
    ensures var m := Step(n, Clears(c, Object(Some(ClearPassword))));
            && Synced(m)
            && ActionOk(m, Drags(d, i, t, false))
            && Step(m, Drags(d, i, t, false)) == m
  {
    var m := Step(n, Clears(c, Object(Some(ClearPassword))));
    AuthorizedClearEmptiesAll(n, c);
    var r := Step(m, Drags(d, i, t, false));
    assert r.relay == Empty;
    assert forall e :: e in r.clients ==> r.clients[e] == m.clients[e];
  }
}

=== FILE: pinch.dfy ===
/** The two-finger pinch of the touch handlers: a session recorded when the
    second finger lands, and the pan-and-zoom applied on every move. */
module Pinch {

  import opened Wrappers
  import opened Camera

  /** `d` is `Math.hypot` of the two touch points: the one non-negative root
      of the squared distance. */
  predicate IsDistance(a: Point, b: Point, d: real) {
    d >= 0.0 && d * d == (a.x - b.x) * (a.x - b.x) + (a.y - b.y) * (a.y - b.y)
  }

  /** `midPoint`: the point halfway between the two touches. */
  function Mid(a: Point, b: Point): (m: Point)
    ensures m.x - a.x == b.x - m.x && m.y - a.y == b.y - m.y
  {
    Point((a.x + b.x) / 2.0, (a.y + b.y) / 2.0)
  }

  /** The `pinch` record: finger distance, camera and midpoint when the gesture
      began, and the midpoint and clock of the previous frame. */
  datatype Session = Session(
    startDist: real,
    startView: View,
    startCenter: Point,
    lastCenter: Point,
    lastTime: real)

  predicate SessionOk(p: Session) {
    p.startDist >= 0.0 && Valid(p.startView)
  }

  /** The world point under the midpoint when the gesture began. */
  function AnchorWorld(p: Session): (w: Point)
    requires SessionOk(p)
  {
    ScreenToWorld(p.startView, p.startCenter)
  }

  /** The two-finger branch of touchstart; `now` is the clock reading. */
  function Start(v: View, a: Point, b: Point, d: real, now: real): (p: Session)
    requires Valid(v)
    requires IsDistance(a, b, d)
    ensures SessionOk(p)
    ensures AnchorWorld(p) == ScreenToWorld(v, Mid(a, b))
    ensures p.lastCenter == p.startCenter == Mid(a, b)
    ensures p.startView == v && p.startDist == d && p.lastTime == now
  {
    Session(d, v, Mid(a, b), Mid(a, b), now)
  }

  /** The scale the client's `touchmove` computes from the finger distance, with `None`
      standing for NaN. A start distance of zero divides by zero: `d / 0` is
      +Infinity when `d > 0`, which the clamp turns into the maximum scale,
      and NaN when `d == 0`, which `Math.min` and `Math.max` pass through. */
  function ScaleAsWritten(p: Session, d: real): (r: Option<real>)
    requires SessionOk(p)
    requires d >= 0.0
    ensures r.None? <==> p.startDist == 0.0 && d == 0.0
    ensures r.Some? ==> MinScale <= r.value <= MaxScale
    ensures p.startDist == 0.0 && d > 0.0 ==> r == Some(MaxScale)
  {
    if p.startDist > 0.0 then Some(Clamp(p.startView.scale * (d / p.startDist)))
    else if d > 0.0 then Some(MaxScale)
    else None
  }

  /** Two fingers reported at the same point at the start and at a later move
      give a NaN scale, which breaks the scale invariant for good. */
  lemma NaNScaleWitness()
    ensures var a := Point(10.0, 10.0);
            ScaleAsWritten(Start(Home, a, a, 0.0, 0.0), 0.0) == None
  {
  }

  /** The pinch scale with a zero start distance handled. Fingers that
      start together and then part zoom to the maximum, as the client's
      infinite ratio does; fingers still together keep the start scale
      instead of producing NaN. */
  function NewScale(p: Session, d: real): (s: real)
    requires SessionOk(p)
    requires d >= 0.0
    ensures MinScale <= s <= MaxScale
    ensures p.startDist == 0.0 && d > 0.0 ==> s == MaxScale
    ensures p.startDist == 0.0 && d == 0.0 ==> s == p.startView.scale
  {
    if p.startDist > 0.0 then Clamp(p.startView.scale * (d / p.startDist))
    else if d > 0.0 then MaxScale
    else p.startView.scale
  }

  /** The scale follows the fingers: spreading them never zooms out, pinching
      them never zooms in, within the bounds the new scale is the start scale
      times the ratio of the distances, and beyond a bound it is that bound. */
  lemma ScaleFollowsFingers(p: Session, d: real)
    requires SessionOk(p)
    requires d >= 0.0
    requires p.startDist > 0.0
    ensures d >= p.startDist ==> NewScale(p, d) >= p.startView.scale
    ensures d <= p.startDist ==> NewScale(p, d) <= p.startView.scale
    ensures MinScale <= p.startView.scale * d / p.startDist <= MaxScale
            ==> NewScale(p, d) * p.startDist == p.startView.scale * d
    ensures p.startView.scale * d >= MaxScale * p.startDist ==> NewScale(p, d) == MaxScale
    ensures p.startView.scale * d <= MinScale * p.startDist ==> NewScale(p, d) == MinScale
  {
    SpreadingZoomsIn(p, d);
    PinchingZoomsOut(p, d);
    UnclampedIsRatio(p, d);
    ClampedAtBounds(p, d);
  }

  lemma ClampedAtBounds(p: Session, d: real)
    requires SessionOk(p) && d >= 0.0 && p.startDist > 0.0
    ensures p.startView.scale * d >= MaxScale * p.startDist ==> NewScale(p, d) == MaxScale
    ensures p.startView.scale * d <= MinScale * p.startDist ==> NewScale(p, d) == MinScale
  {
    var k := p.startView.scale;
    var sd := p.startDist;
    var r := k * (d / sd);
    assert NewScale(p, d) == Clamp(r);
    RatioBeyond(k, d, sd, r);
  }

  lemma RatioBeyond(k: real, d: real, sd: real, r: real)
    requires k > 0.0 && d >= 0.0 && sd > 0.0 && r == k * (d / sd)
    ensures k * d >= MaxScale * sd ==> Clamp(r) == MaxScale
    ensures k * d <= MinScale * sd ==> Clamp(r) == MinScale
  {
    RatioFacts(k, d, sd, r);
    Beyond(r, sd, k * d, MaxScale);
    Beyond(r, sd, k * d, MinScale);
  }

  /** Dividing a bound on `r * c` by a positive `c` bounds `r`. */
  lemma Beyond(r: real, c: real, rc: real, b: real)
    requires c > 0.0 && rc == r * c
    ensures rc >= b * c ==> r >= b
    ensures rc <= b * c ==> r <= b
  {
    if rc >= b * c {
      assert (r - b) * c >= 0.0;
    }
    if rc <= b * c {
      assert (b - r) * c >= 0.0;
    }
  }

  lemma SpreadingZoomsIn(p: Session, d: real)
    requires SessionOk(p) && d >= 0.0 && p.startDist > 0.0
    ensures d >= p.startDist ==> NewScale(p, d) >= p.startView.scale
  {
    var k := p.startView.scale;
    var r := k * (d / p.startDist);
    if d >= p.startDist {
      RatioUp(k, d, p.startDist, r);
      ClampFollows(k, r);
    }
  }

  lemma PinchingZoomsOut(p: Session, d: real)
    requires SessionOk(p) && d >= 0.0 && p.startDist > 0.0
    ensures d <= p.startDist ==> NewScale(p, d) <= p.startView.scale
  {
    var k := p.startView.scale;
    var r := k * (d / p.startDist);
    if d <= p.startDist {
      RatioDown(k, d, p.startDist, r);
      ClampFollows(k, r);
    }
  }

  lemma UnclampedIsRatio(p: Session, d: real)
    requires SessionOk(p) && d >= 0.0 && p.startDist > 0.0
    ensures MinScale <= p.startView.scale * d / p.startDist <= MaxScale
            ==> NewScale(p, d) * p.startDist == p.startView.scale * d
  {
    var k := p.startView.scale;
    var sd := p.startDist;
    var r := k * (d / sd);
    RatioFacts(k, d, sd, r);
    if MinScale <= k * d / sd <= MaxScale {
      ClampKeeps(r);
      assert NewScale(p, d) == r;
    }
  }

  lemma RatioUp(k: real, d: real, sd: real, r: real)
    requires k > 0.0 && sd > 0.0 && d >= sd && r == k * (d / sd)
    ensures r >= k
  {
    var ratio := d / sd;
    assert ratio * sd == d;
    assert ratio >= 1.0;
  }

  lemma RatioDown(k: real, d: real, sd: real, r: real)
    requires k > 0.0 && sd > 0.0 && 0.0 <= d <= sd && r == k * (d / sd)
    ensures r <= k
  {
    var ratio := d / sd;
    assert ratio * sd == d;
    assert ratio <= 1.0;
  }

  /** Clamping keeps a scale that is already in range. */
  lemma ClampKeeps(s: real)
    requires MinScale <= s <= MaxScale
    ensures Clamp(s) == s
  {
  }

  /** Clamping a scale moved away from an in-range one moves it the same way. */
  lemma ClampFollows(k: real, r: real)
    requires MinScale <= k <= MaxScale
    ensures r >= k ==> Clamp(r) >= k
    ensures r <= k ==> Clamp(r) <= k
  {
  }

  lemma RatioFacts(k: real, d: real, sd: real, r: real)
    requires k > 0.0 && d >= 0.0 && sd > 0.0 && r == k * (d / sd)
    ensures r == k * d / sd
    ensures r * sd == k * d
  {
    assert (d / sd) * sd == d;
  }

  /** Wherever the client's scale is a number, the corrected scale is that
      number; where it is NaN, the corrected scale is the start scale. */
  lemma NewScaleAgreesWhenDefined(p: Session, d: real)
    requires SessionOk(p)
    requires d >= 0.0
    ensures ScaleAsWritten(p, d).Some? ==> ScaleAsWritten(p, d) == Some(NewScale(p, d))
    ensures ScaleAsWritten(p, d).None? ==> NewScale(p, d) == p.startView.scale
  {
  }

  /** Fingers spreading from 100 to 200 pixels apart at scale 1 give scale 2. */
  lemma PinchScaleScenario(a: Point, b: Point)
    requires IsDistance(a, b, 100.0)
    ensures NewScale(Start(Home, a, b, 100.0, 0.0), 200.0) == 2.0
  {
    assert 1.0 * (200.0 / 100.0) == 2.0;
  }

  /** Milliseconds per frame that the pan velocity is normalised to. */
  const FrameMs: real := 16.67

  datatype Frame = Frame(view: View, session: Session, velocity: Point)

  /** The two-finger branch of touchmove: zoom about the start midpoint using
      the start camera, move that world point to the current midpoint, add the
      midpoint's movement since the previous frame, and estimate the pan
      velocity per 16.67 ms from the elapsed time (at least 1 ms). */
  function Move(p: Session, a: Point, b: Point, d: real, now: real): (f: Frame)
    requires SessionOk(p)
    requires IsDistance(a, b, d)
    ensures Valid(f.view)
    ensures f.view.scale == NewScale(p, d)
    ensures var m := Mid(a, b);
            WorldToScreen(f.view, AnchorWorld(p))
              == Point(m.x + (m.x - p.lastCenter.x), m.y + (m.y - p.lastCenter.y))
    ensures SessionOk(f.session)
    ensures f.session == p.(lastCenter := Mid(a, b), lastTime := now)
    ensures var m := Mid(a, b);
            var dt := Max(1.0, now - p.lastTime);
            f.velocity.x * dt == (m.x - p.lastCenter.x) * FrameMs
            && f.velocity.y * dt == (m.y - p.lastCenter.y) * FrameMs
  {
    var m := Mid(a, b);
    var s := NewScale(p, d);
    var w := AnchorWorld(p);
    var dx := m.x - p.lastCenter.x;
    var dy := m.y - p.lastCenter.y;
    var dt := Max(1.0, now - p.lastTime);
    var v := View(s, m.x - w.x * s + dx, m.y - w.y * s + dy);
    Frame(v, p.(lastCenter := m, lastTime := now), Point(dx / (dt / FrameMs), dy / (dt / FrameMs)))
  }

  /** When the midpoint has not moved since the previous frame, the world point
      that was under the midpoint when the gesture began is exactly under the
      current midpoint. */
  lemma PinchKeepsAnchor(p: Session, a: Point, b: Point, d: real, now: real)
    requires SessionOk(p)
    requires IsDistance(a, b, d)
    requires Mid(a, b) == p.lastCenter
    ensures ScreenToWorld(Move(p, a, b, d, now).view, Mid(a, b)) == AnchorWorld(p)
  {
    var f := Move(p, a, b, d, now);
    WorldRoundTrip(f.view, AnchorWorld(p));
  }
}

=== FILE: protocol.dfy ===
/** The Socket.IO events exchanged between clients and the relay. */
module Protocol {

  import opened Wrappers
  import opened Scene

  /** A connected socket. */
  type ClientId = nat

  /** The payload of a `clear` request: a JSON object whose `password` field
      may be absent, or anything that is not an object. */
  datatype ClearPayload = Object(password: Option<string>) | NotObject

  /** Events a client emits to the relay. */
  datatype Request =
    | Draw(line: Line)
    | TextAdd(text: Text)
    | TextMove(text: Text)
    | ClearRequest(payload: ClearPayload)

  /** Events the relay emits to clients. A missing list in `init` is `None`. */
  datatype Event =
    | InitEvent(lines: Option<seq<Line>>, texts: Option<seq<Text>>)
    | DrawEvent(line: Line)
    | TextAddEvent(text: Text)
    | TextMoveEvent(text: Text)
    | ClearEvent
    | ClearDeniedEvent(msg: string)
}

=== FILE: relay.dfy ===
/** The relay: the authoritative board and the state effect and recipients
    of each socket handler. */
module Relay {

  import opened Wrappers
  import opened Scene
  import opened Protocol

  const ClearPassword: string := "hasker"

  /** The refusal text sent back on a wrong password. */
  const DeniedText: string := "Неверный пароль"

  /** One emitted event and the set of sockets it is addressed to. */
  datatype Emit = Emit(to: set<ClientId>, event: Event)

  datatype Outcome = Outcome(state: Board, emit: Emit)

  /** `include_self=False` broadcast: every connected socket but the sender. */
  function Others(clients: set<ClientId>, sender: ClientId): (r: set<ClientId>)
    ensures sender !in r
    ensures forall c :: c in clients && c != sender <==> c in r
  {
    clients - {sender}
  }

  /** On connect the new socket alone receives the whole board. */
  function OnConnect(s: Board, c: ClientId): (r: Outcome)
    ensures r.state == s
    ensures r.emit.to == {c}
    ensures r.emit.event.InitEvent?
            && OrEmpty(r.emit.event.lines) == s.lines
            && OrEmpty(r.emit.event.texts) == s.texts
  {
    Outcome(s, Emit({c}, InitEvent(Some(s.lines), Some(s.texts))))
  }

  /** `on_draw`: store the segment at the end and forward it to the others. */
  function OnDraw(s: Board, clients: set<ClientId>, sender: ClientId, l: Line): (r: Outcome)
    ensures r.state.texts == s.texts
    ensures r.state.lines == s.lines + [l]
    ensures r.emit.to == Others(clients, sender) && r.emit.event == DrawEvent(l)
  {
    Outcome(AddLine(s, l), Emit(Others(clients, sender), DrawEvent(l)))
  }

  /** `on_text_add`: append, even over an existing id, and forward. */
  function OnTextAdd(s: Board, clients: set<ClientId>, sender: ClientId, t: Text): (r: Outcome)
    ensures r.state.lines == s.lines
    ensures r.state.texts == s.texts + [t]
    ensures r.emit.to == Others(clients, sender) && r.emit.event == TextAddEvent(t)
  {
    Outcome(AddText(s, t), Emit(Others(clients, sender), TextAddEvent(t)))
  }

  /** `on_text_move`: replace the first text with the same id and forward
      the event whether or not anything matched. */
  function OnTextMove(s: Board, clients: set<ClientId>, sender: ClientId, t: Text): (r: Outcome)
    ensures r.state.lines == s.lines
    ensures |r.state.texts| == |s.texts|
    ensures NoIdBefore(s.texts, |s.texts|, t.id) ==> r.state == s
    ensures forall i :: 0 <= i < |s.texts| && s.texts[i].id == t.id && NoIdBefore(s.texts, i, t.id)
              ==> r.state.texts == s.texts[i := t]
    ensures r.emit.to == Others(clients, sender) && r.emit.event == TextMoveEvent(t)
  {
    Outcome(MoveText(s, t), Emit(Others(clients, sender), TextMoveEvent(t)))
  }

  /** The password check: the payload must be an object whose `password`
      is exactly the configured one. */
  predicate Authorized(p: ClearPayload)
    ensures Authorized(p) <==> p == Object(Some("hasker"))
  {
    p.Object? && p.password == Some(ClearPassword)
  }

  /** `on_clear`: with the right password, empty the board and tell every
      socket including the sender; otherwise change nothing and answer only
      the sender. */
  function OnClear(s: Board, clients: set<ClientId>, sender: ClientId, p: ClearPayload): (r: Outcome)
    ensures Authorized(p) ==> r.state == Empty && r.emit == Emit(clients, ClearEvent)
    ensures !Authorized(p) ==> r.state == s && r.emit == Emit({sender}, ClearDeniedEvent(DeniedText))
    ensures r.state != s ==> p == Object(Some("hasker"))
  {
    if Authorized(p) then Outcome(Empty, Emit(clients, ClearEvent))
    else Outcome(s, Emit({sender}, ClearDeniedEvent(DeniedText)))
  }

  /** The handler for each request. */
  function Handle(s: Board, clients: set<ClientId>, sender: ClientId, req: Request): (r: Outcome)
    ensures !req.ClearRequest? ==> sender !in r.emit.to
    ensures req.Draw? || req.TextAdd? ==> |r.state.lines| + |r.state.texts| == |s.lines| + |s.texts| + 1
    ensures req.TextMove? ==> |r.state.lines| == |s.lines| && |r.state.texts| == |s.texts|
  {
    match req
    case Draw(l) => OnDraw(s, clients, sender, l)
    case TextAdd(t) => OnTextAdd(s, clients, sender, t)
    case TextMove(t) => OnTextMove(s, clients, sender, t)
    case ClearRequest(p) => OnClear(s, clients, sender, p)
  }
}

=== FILE: scene.dfy ===
/** The synchronized drawing: an ordered list of line segments and an ordered
    list of text labels, with the merge rules that both the relay and every
    client apply to them. */
module Scene {

  import opened Wrappers
  import opened Camera

  /** Text ids are `Date.now()` numbers. */
  type Id = int

  /** One stroke segment in world coordinates. */
  datatype Line = Line(from: Point, to: Point, size: real, color: string)

  /** A text label; `(x, y)` is its world position, `size` its font size at scale 1. */
  datatype Text = Text(id: Id, text: string, x: real, y: real, size: real, color: string)

  datatype Board = Board(lines: seq<Line>, texts: seq<Text>)

  const Empty: Board := Board([], [])

  /** No text before index `i` carries `id`. */
  ghost predicate NoIdBefore(texts: seq<Text>, i: int, id: Id)
    requires i <= |texts|
  {
    forall j :: 0 <= j < i ==> texts[j].id != id
  }

  /** The index of the first text with `id`: `findIndex` on the client, the
      loop with `break` on the relay. */
  function FindFirst(texts: seq<Text>, id: Id): (r: Option<nat>)
    ensures r.Some? ==> r.value < |texts| && texts[r.value].id == id && NoIdBefore(texts, r.value, id)
    ensures r.None? ==> NoIdBefore(texts, |texts|, id)
  {
    if |texts| == 0 then None
    else if texts[0].id == id then Some(0)
    else match FindFirst(texts[1..], id)
      case None => None
      case Some(i) => Some(i + 1)
  }

  /** Replace the first text whose id equals `t.id` by `t`; with no such
      text, nothing changes. */
  function ReplaceFirst(texts: seq<Text>, t: Text): (r: seq<Text>)
    ensures |r| == |texts|
    ensures NoIdBefore(texts, |texts|, t.id) ==> r == texts
    ensures forall i :: 0 <= i < |texts| && texts[i].id == t.id && NoIdBefore(texts, i, t.id)
              ==> r == texts[i := t]
  {
    match FindFirst(texts, t.id)
    case None => texts
    case Some(i) => texts[i := t]
  }

  /** Inbound or relayed `draw`: the segment goes on top, nothing is
      deduplicated, and the texts are untouched. */
  function AddLine(b: Board, l: Line): (r: Board)
    ensures r.texts == b.texts
    ensures |r.lines| == |b.lines| + 1
    ensures r.lines[..|b.lines|] == b.lines && r.lines[|b.lines|] == l
    ensures multiset(r.lines)[l] == multiset(b.lines)[l] + 1
  {
    assert (b.lines + [l])[..|b.lines|] == b.lines;
    Board(b.lines + [l], b.texts)
  }

  /** Inbound or relayed `text_add`: a plain append, even when a text with
      the same id is already present. */
  function AddText(b: Board, t: Text): (r: Board)
    ensures r.lines == b.lines
    ensures |r.texts| == |b.texts| + 1
    ensures r.texts[..|b.texts|] == b.texts && r.texts[|b.texts|] == t
    ensures multiset(r.texts)[t] == multiset(b.texts)[t] + 1
  {
    assert (b.texts + [t])[..|b.texts|] == b.texts;
    Board(b.lines, b.texts + [t])
  }

  /** Inbound or relayed `text_move`: the first text with the same id is
      replaced by the received object as a whole. */
  function MoveText(b: Board, t: Text): (r: Board)
    ensures r.lines == b.lines
    ensures |r.texts| == |b.texts|
    ensures forall j :: 0 <= j < |b.texts| && b.texts[j].id != t.id ==> r.texts[j] == b.texts[j]
    ensures forall i :: 0 <= i < |b.texts| && b.texts[i].id == t.id && NoIdBefore(b.texts, i, t.id)
              ==> r.texts == b.texts[i := t]
    ensures NoIdBefore(b.texts, |b.texts|, t.id) ==> r == b
  {
    Board(b.lines, ReplaceFirst(b.texts, t))
  }

  /** A text id occurs at most once on the board. */
  ghost predicate UniqueIds(texts: seq<Text>) {
    forall i, j :: 0 <= i < j < |texts| ==> texts[i].id != texts[j].id
  }

  /** With unique ids, a move replaces exactly the text with that id. */
  lemma MoveTextUnique(b: Board, t: Text, i: nat)
    requires UniqueIds(b.texts)
    requires i < |b.texts| && b.texts[i].id == t.id
    ensures MoveText(b, t).texts == b.texts[i := t]
    ensures UniqueIds(MoveText(b, t).texts)
  {
    assert NoIdBefore(b.texts, i, t.id);
  }

  /** Moves of one text race with last-write-wins: two moves leave exactly
      the later one, and the text keeps its place in the stacking order. */
  lemma MoveLastWriteWins(b: Board, t1: Text, t2: Text, i: nat)
    requires i < |b.texts| && b.texts[i].id == t1.id == t2.id
    requires NoIdBefore(b.texts, i, t1.id)
    ensures MoveText(MoveText(b, t1), t2) == MoveText(b, t2)
    ensures MoveText(b, t2).texts == b.texts[i := t2]
  {
    var m := MoveText(b, t1);
    assert m.texts == b.texts[i := t1];
    assert NoIdBefore(m.texts, i, t2.id);
  }

  /** Applying the same `draw` twice keeps two copies of the segment. */
  lemma DrawTwiceKeepsBoth(b: Board, l: Line)
    ensures var r := AddLine(AddLine(b, l), l);
            |r.lines| == |b.lines| + 2
            && r.lines[|b.lines|] == l && r.lines[|b.lines| + 1] == l
            && multiset(r.lines)[l] == multiset(b.lines)[l] + 2
  {
  }

  /** Adding a text whose id is already present keeps the old text and adds
      a second one with that id: `text_add` is not an upsert. */
  lemma TextAddIsNotUpsert(b: Board, t: Text, i: nat)
    requires i < |b.texts| && b.texts[i].id == t.id
    ensures var r := AddText(b, t);
            r.texts[i] == b.texts[i]
            && r.texts[|b.texts|] == t
            && !UniqueIds(r.texts)
  {
    var r := AddText(b, t);
    assert r.texts[i] == b.texts[i];
    assert r.texts[i].id == r.texts[|b.texts|].id;
  }
}

=== FILE: wrappers.dfy ===
/** Optional values: JavaScript's `null`, a missing field of a JSON payload,
    or a search that found nothing. */
module Wrappers {

  datatype Option<+T> = None | Some(value: T)

  /** A list field that may be missing, read the way the client reads
      `data.lines || []`: a missing list is the empty one. */
  function OrEmpty<T>(o: Option<seq<T>>): (r: seq<T>)
    ensures o.Some? ==> r == o.value
    ensures o.None? ==> r == []
  {
    if o.Some? then o.value else []
  }
}
